=== FILE: README.md ===
# flamingo-socket metadata, membership and persistence, in Dafny

This project models the core of the flamingo-socket collaboration server as pure
state transitions over an in-memory store. The store holds projects with their
collaborator lists, and the page -> canvas -> layer tree. The model covers:

- **The connection gate and the socket handlers** (`src/server.ts`). The gate
  admits a socket only when its handshake token verifies. Every handler looks
  up the session's role: the first collaborator whose `userId` equals
  `Number(session id)`. The handlers are `join-project`, and create, update and
  delete for pages, canvases and layers. Each handler is a function
  `(Store, User, request) -> Reply(Store, Outcome)`. The outcome is one of:
  - an error sent to the requester only;
  - one event broadcast to the project's room;
  - a join with the initial data;
  - nothing.
- **The membership mirror** (`src/services/kafka.consumer.ts`, the
  `eachMessage` body). It applies project and collaborator events from Kafka to
  the project collection.
- **Debounced persistence of layer documents**
  (`src/services/persistence.service.ts`). This is a clocked state machine:
  - one saver per layer, with a trailing-edge deadline of 5000 ticks;
  - `tick(now)` fires every saver that is due;
  - `flushAll` fires every pending saver.

  A fired saver copies the cached CRDT snapshot under `"yjs-doc:" + layerId`
  into the layer's `data` field.
- **The four Mongoose schemas** (`src/models/*.model.ts`): their enums, their
  defaults, the opacity range, and the rule that `required` rejects empty
  strings.

Modules, one per component:

| file | module | models |
|---|---|---|
| basics.dfy | `Basics` | `Option`, bytes |
| numbers.dfy | `Numbers` | JavaScript `Number(...)` on ids, decimal spelling |
| seqs.dfy | `Seqs` | filter, map, first match, subsequences, stable insertion sort |
| schema.dfy | `Schema` | the four schemas, enums, defaults, patches |
| storage.dfy | `Storage` | the shared database, lookups by id, sibling orders |
| auth.dfy | `Auth` | the handshake middleware |
| permission.dfy | `Permission` | role lookup, owner/editor guard, join test |
| metadata.dfy | `Metadata` | the socket handlers and their dispatch |
| metadata_properties.dfy | `MetadataProperties` | invariants and scenarios across handler calls |
| membership.dfy | `Membership` | the Kafka membership mirror |
| persistence.dfy | `Persistence` | `saveToMongo`, the saver map, debounce and flush |

The model follows the code, and so it keeps these behaviours of the code:

- A canvas may be created on a page of another project. The new canvas records
  the request's project (`MetadataProperties.CanvasMayLandOnForeignPage`).
- `delete-page` checks the request's project and then deletes the page by id,
  wherever the page lies (`MetadataProperties.DeletePageIgnoresPageProject`).
- `COLLABORATOR_ADDED` does not check for an existing entry. A second entry for
  the same user is shadowed by the first one
  (`Membership.DuplicateAddIsShadowed`).
- `PROJECT_DELETED` removes only the project document. Pages, canvases and
  layers stay (`Membership.ConsumeInto`).
- Roles pushed or set by an update are stored even when they are outside the
  schema's enum. Mongoose does not run validators on updates.
- A save that throws is caught, and its saver is no longer pending afterwards.
  A failed save is therefore not retried by a later flush (`Persistence.Fire`).
- An empty buffer is a truthy JavaScript object, so it is written.

## Model

| member | source | states |
|---|---|---|
| Auth.Authenticate | src/server.ts:39-57 | a socket is admitted exactly when it presents a non-empty token that verifies; a missing or empty token and a failing token get their two distinct error messages; an admitted session carries exactly the id and email of the decoded token |
| Permission.FindCollaborator | src/server.ts:91-93 | the lookup finds nothing exactly when no entry matches the session id; otherwise it returns the first matching entry |
| Permission.RoleIn | src/server.ts:135-144 | a missing project gives no role; otherwise the role is absent exactly when the user is not listed, and is the role of the first entry of that user |
| Permission.MayEdit | src/server.ts:135-144 | the owner/editor guard holds exactly when the project exists and the first collaborator matching the session id has role owner or editor |
| Permission.MayJoin | src/server.ts:97-109 | the join test holds exactly when the project exists and some collaborator matches the session id |
| Permission.NaNUserHasNoRole | src/server.ts:91-93 | a session id that converts to NaN matches no collaborator, so it may neither join nor edit |
| Permission.EditImpliesJoin | src/server.ts:97-109 | whoever may edit may join; a viewer may join but not edit |
| Numbers.ToNumberShow | src/server.ts:92 | converting the decimal spelling of any integer id back with `Number` gives the id, for either sign |
| Numbers.DecimalInjective | src/services/persistence.service.ts:8 | distinct layer ids have distinct decimal spellings |
| Numbers.ToNumber | src/server.ts:92 | `Number(...)` on an id, in the modelled subset: a number is itself; a digit string, the empty one included, converts to the value its digits spell, so `""` is 0; `-` or `+` before at least one digit negates or keeps that value; no other string converts, so a lone sign is NaN |
| Numbers.ToNumberLeadingZero | src/server.ts:92 | a leading zero does not change what a digit string converts to, so `"007"` is 7 |
| Numbers.ToNumberSigned | src/server.ts:92 | for a non-empty digit string, a leading `+` converts to the same value and a leading `-` to its negation |
| Numbers.ToNumberRejectsNonDigit | src/server.ts:92 | in the modelled subset of `Number`, a session id string with a non-digit after its first character converts to NaN |
| Storage.NextOrder | src/server.ts:146-150 | a new sibling's order exceeds every sibling order, is one past an existing order, and is 0 without siblings |
| Storage.NextOrderOfRange | src/server.ts:146-150 | after siblings ordered 0..n-1 the next one gets n |
| Storage.FindPage | src/server.ts:249-253 | the parent lookup succeeds exactly when a page with that id exists, and returns a stored page with that id |
| Storage.FindCanvas | src/server.ts:355-358 | the parent lookup succeeds exactly when a canvas with that id exists, and returns a stored canvas with that id |
| Storage.FindLayer | src/server.ts:401-405 | the lookup of `findByIdAndUpdate` succeeds exactly when a layer with that id exists, and returns a stored layer with that id |
| Metadata.OnJoinProject | src/server.ts:66-129 | joining never changes the store; a missing project and an unlisted user get their two error messages; the socket joins exactly when it is listed under any role, and receives the project's pages, canvases and layers, each a permutation of the stored ones sorted by order |
| Metadata.OnCreatePage | src/server.ts:132-166 | a user who may not edit gets the denial with the store unchanged; a page is created and broadcast exactly when the user may edit and project and name are non-empty; the new page has a fresh id and the next sibling order; any failure leaves the store unchanged |
| Metadata.OnCreateCanvas | src/server.ts:233-281 | denial first, then "Parent page not found." when the page is missing, both with the store unchanged; a canvas is created exactly when the guard passes, the page exists and the fields validate; it has a fresh id, the next order among the page's canvases, and unit px unless given |
| Metadata.OnCreateLayer | src/server.ts:341-381 | denial first, then "Parent canvas not found."; a layer is created exactly when the guard passes, the canvas exists, project and name are non-empty and the type is one of the four; it gets a fresh id, the next order among the canvas's layers, and the schema defaults (normal blend, opacity 100, visible, unlocked, empty data) |
| Metadata.OnUpdatePage | src/server.ts:169-196 | denial leaves the store unchanged; a missing page emits nothing; otherwise only the page with that id takes the patched fields, every other record is unchanged, and an editor's update of an existing page always broadcasts the updated page |
| Metadata.OnUpdateCanvas | src/server.ts:283-311 | as for pages: only the targeted canvas takes the patched fields, and there is a broadcast exactly when an editor updates an existing canvas |
| Metadata.StripData | src/server.ts:396-399 | a patch loses only its `data` field, and only when that field is truthy; a kept `data` is never truthy, and a falsy `data` is always kept |
| Metadata.OnUpdateLayer | src/server.ts:383-416 | as for pages (a broadcast exactly when an editor updates an existing layer), and a truthy `data` in the patch is dropped first, so a stored snapshot changes only when the patch carries a falsy `data` |
| Metadata.CascadePage | src/server.ts:211-224 | after the cascade there is no such page, no canvas of that page, and no layer of those canvases; every other record survives in its original order |
| Metadata.DoomedIds | src/server.ts:211-218 | a layer lies under the page exactly when its canvas id is among the ids of the page's canvases |
| Metadata.OnDeletePage | src/server.ts:199-231 | denial leaves the store unchanged; otherwise the page cascade is applied and exactly one page-deleted event is broadcast, whether or not the page existed |
| Metadata.CascadeCanvas | src/server.ts:326-330 | no such canvas and none of its layers remain; pages and every other canvas and layer are kept in order |
| Metadata.OnDeleteCanvas | src/server.ts:313-339 | denial leaves the store unchanged; otherwise the canvas cascade is applied and canvas-deleted is broadcast without an existence check |
| Metadata.OnDeleteLayer | src/server.ts:418-440 | denial leaves the store unchanged; otherwise only layers with that id are removed, the rest keep their order, and layer-deleted is broadcast |
| Metadata.Dispatch | src/server.ts:66-440 | no handler touches the project collection; a mutation from a user who may not edit changes nothing and errs; any store change comes with a broadcast to the request's project by an owner or editor; only a listed user joins |
| MetadataProperties.DeletionKeepsWellFormed | src/server.ts:211-224 | removing records keeps ids unique and issued |
| MetadataProperties.CreatePageKeepsWellFormed | src/server.ts:152-156 | creating a page keeps ids unique and issued |
| MetadataProperties.CreateCanvasKeepsWellFormed | src/server.ts:261-272 | creating a canvas keeps ids unique and issued |
| MetadataProperties.CreateLayerKeepsWellFormed | src/server.ts:366-375 | creating a layer keeps ids unique and issued |
| MetadataProperties.UpdatePageKeepsWellFormed | src/server.ts:181-185 | a page update keeps ids unique and issued |
| MetadataProperties.UpdateCanvasKeepsWellFormed | src/server.ts:296-300 | a canvas update keeps ids unique and issued |
| MetadataProperties.UpdateLayerKeepsWellFormed | src/server.ts:401-405 | a layer update keeps ids unique and issued |
| MetadataProperties.DeletesKeepWellFormed | src/server.ts:199-440 | each of the three deletions keeps ids unique and issued |
| MetadataProperties.DispatchPreservesWellFormed | src/server.ts:66-440 | every event of an admitted socket keeps ids unique and issued |
| MetadataProperties.RunRequestsPreservesWellFormed | src/server.ts:66-440 | any sequence of events from one socket keeps ids unique and issued |
| MetadataProperties.FollowsRange | src/server.ts:146-150 | a sibling that follows orders 0..k-1 gets order k |
| MetadataProperties.PageOrdersStayDense | src/server.ts:146-159 | when a project's pages carry orders 0..k-1, a new page gets k and they then carry 0..k, so sequential creation numbers pages densely from 0 |
| MetadataProperties.CanvasOrdersStayDense | src/server.ts:255-272 | the same for the canvases of a page |
| MetadataProperties.LayerOrdersStayDense | src/server.ts:360-375 | the same for the layers of a canvas |
| MetadataProperties.CanvasMayLandOnForeignPage | src/server.ts:249-272 | a canvas is created on an existing page even when the page belongs to another project than the request's |
| MetadataProperties.DeletePageIgnoresPageProject | src/server.ts:199-224 | an editor of one project deletes a page of another project |
| MetadataProperties.ScenarioCreatesArt | src/server.ts:233-281 | illustration on one fixed store, not an all-inputs property: on an empty page an editor's first canvas is stored and broadcast with order 0 and unit px |
| MetadataProperties.ScenarioCreatesArt2 | src/server.ts:255-259 | illustration on one fixed store, not an all-inputs property: the second canvas on the page gets order 1 |
| MetadataProperties.ScenarioDeletesHome | src/server.ts:211-224 | illustration on one fixed store, not an all-inputs property: deleting the page then removes the page and both canvases |
| MetadataProperties.HomePageScenario | src/server.ts:233-281 | illustration on one fixed store, not an all-inputs property: create, create, delete-page in a row: orders 0 and 1, then nothing of the page remains and one page-deleted is broadcast |
| Membership.CreateProject | src/services/kafka.consumer.ts:54-65 | a new project is filed under the given id with that name, owner `Number(owner_id)` and exactly one collaborator, the owner as owner; a duplicate id, an empty id or name, or a NaN owner leaves the collection unchanged; no other project changes |
| Membership.DeleteProject | src/services/kafka.consumer.ts:66-78 | the project is gone and every other project is unchanged, whether or not it existed |
| Membership.AddCollaborator | src/services/kafka.consumer.ts:88-96 | the entry `{Number(userId), role}` is appended at the end without a duplicate check; a missing project or a NaN user id changes nothing |
| Membership.SetFirstRole | src/services/kafka.consumer.ts:98-106 | only the first entry of the user takes the new role; every other entry and every other project is unchanged |
| Membership.PullUser | src/services/kafka.consumer.ts:108-116 | every entry of the user goes; every other entry stays in its relative order, with the same number of copies |
| Membership.Consume | src/services/kafka.consumer.ts:45-119 | an empty record, an unknown topic or an unknown event changes nothing; each known event on its topic applies exactly its operation |
| Membership.ConsumeInto | src/services/kafka.consumer.ts:66-78 | the mirror writes only projects: pages, canvases and layers stay in place even when their project is deleted |
| Membership.FindAtFirstMatch | src/server.ts:91-93 | the lookup returns the entry at the first match |
| Membership.FindCons | src/server.ts:91-93 | the lookup on a list with a known head: the head when it matches, else the lookup on the rest |
| Membership.FindSnoc | src/services/kafka.consumer.ts:88-96 | after an append the lookup still finds an earlier entry of the user, and finds the new entry only when there was none |
| Membership.PullKeepsOtherLookups | src/services/kafka.consumer.ts:108-116 | pulling one user does not change which entry any other user finds |
| Membership.CreatedProjectOwnerMayEdit | src/services/kafka.consumer.ts:54-65 | the owner of a freshly mirrored project has role owner and may edit it |
| Membership.DeletedProjectClosed | src/services/kafka.consumer.ts:66-78 | after PROJECT_DELETED nobody may join the project |
| Membership.AddedCollaboratorRole | src/services/kafka.consumer.ts:88-96 | after COLLABORATOR_ADDED a previously unlisted user has the pushed role; every listed user keeps their role |
| Membership.DuplicateAddIsShadowed | src/services/kafka.consumer.ts:88-96 | adding an already listed user grows the list but leaves that user's role as it was |
| Membership.UpdatedRoleTakesEffect | src/services/kafka.consumer.ts:98-106 | a listed user has the new role afterwards, every other user keeps theirs, and no unlisted user gains access |
| Membership.RemovedCollaboratorLosesAccess | src/services/kafka.consumer.ts:108-116 | the removed user may neither join nor edit; every other user keeps their role |
| Membership.ConsumeKeepsKeyedById | src/services/kafka.consumer.ts:45-119 | every project stays filed under its own `_id` |
| Persistence.CacheKey | src/services/persistence.service.ts:8 | every cache key starts with `yjs-doc:` |
| Persistence.CacheKeyInjective | src/services/persistence.service.ts:8 | two layers share a cache key exactly when they are the same layer |
| Persistence.Save | src/services/persistence.service.ts:7-26 | a save writes the cached buffer to exactly the layers with that id when the cache holds one and the write does not fail; a missing key or a failing write changes no layer and writes nothing; the failure is not raised |
| Persistence.SaveWritesFor | src/services/persistence.service.ts:7-26 | a save writes nothing for any other layer |
| Persistence.DueOfUnique | src/services/persistence.service.ts:30 | with one saver per layer, the deadline read for a layer is the one of the saver at its position |
| Persistence.Call | src/services/persistence.service.ts:32-45 | a call sets its layer's deadline to now + 5000 and leaves every other deadline alone; the map grows by one saver exactly when the layer had none, no saver is removed, and there stays at most one saver per layer |
| Persistence.CallAppends | src/services/persistence.service.ts:33-41 | the first call for a layer adds a saver for it with the new deadline |
| Persistence.CallRearms | src/services/persistence.service.ts:44 | a later call for a layer re-arms its existing saver |
| Persistence.ReadyIds | src/services/persistence.service.ts:50-53 | a layer is to be saved exactly when one of its savers is pending and due by the limit |
| Persistence.Fire | src/services/persistence.service.ts:50-53 | the due savers become idle and the rest keep their deadlines; each layer is saved exactly when its id is among the due ones |
| Persistence.SameLayersOneSaver | src/services/persistence.service.ts:30 | firing keeps at most one saver per layer |
| Persistence.ReadyIdsCons | src/services/persistence.service.ts:52 | the due layers of a list are its head's layer, when due, together with the due layers of the rest |
| Persistence.FireWritesEachLayerOnce | src/services/persistence.service.ts:50-53 | with one saver per layer, a firing writes a layer once, with the latest cached buffer, exactly when it was due, its cache key is set and the write does not fail; otherwise it writes nothing for it |
| Persistence.FireQuiet | src/services/persistence.service.ts:50-53 | when nothing is due, a firing changes nothing and writes nothing |
| Persistence.FlushTwiceWritesNothing | src/services/persistence.service.ts:50-53 | a second flush right after a flush writes nothing and changes nothing |
| Persistence.FireAll | src/services/persistence.service.ts:50-53 | firing only appends to the write log and keeps one saver per layer |
| Persistence.Step | src/services/persistence.service.ts:32-53 | a call writes nothing and leaves the layers alone; no event rewrites the write log, and each keeps one saver per layer |
| Persistence.RunAppend | src/services/persistence.service.ts:32-53 | running two event sequences one after the other is running their concatenation |
| Persistence.TickBeforeDeadline | src/services/persistence.service.ts:36-39 | a tick before a layer's deadline keeps the deadline and writes nothing for the layer |
| Persistence.TickAtDeadline | src/services/persistence.service.ts:36-39 | a tick at or after a layer's deadline makes its saver idle, writes the layer once when its key is cached, and stores that buffer in its data |
| Persistence.RunBurst | src/services/persistence.service.ts:32-45 | running a burst of edits event by event is the recursive burst |
| Persistence.PostponedChain | src/services/persistence.service.ts:36-39 | two postponements one after the other are one postponement to the later deadline |
| Persistence.EditPostpones | src/services/persistence.service.ts:36-39 | an edit inside the quiet window writes nothing for the layer and moves its deadline to the edit's time + 5000 |
| Persistence.RapidTail | src/services/persistence.service.ts:36-39 | the tail of a burst is still a burst |
| Persistence.DeadlineOfTail | src/services/persistence.service.ts:36-39 | the deadline of a burst is that of its last edit |
| Persistence.BurstDefersSave | src/services/persistence.service.ts:36-39 | during a burst of edits with gaps below 5000 nothing is written for the layer, and the deadline is 5000 after the last edit |
| Persistence.BurstWritesOnce | src/services/persistence.service.ts:32-45 | K edits of one layer inside the quiet window, followed by a tick at the deadline, write that layer once, with the buffer cached at that tick, when its key is cached and the write does not fail, and otherwise not at all; either way no save is left pending |
| Schema.RoleOf | src/models/project.model.ts:20-24 | a stored role string reads back as itself, and lies outside the enum exactly when it is not owner, editor or viewer |
| Schema.ParseUnit | src/models/canvas.model.ts:29 | a unit string is accepted exactly when it names one of px, mm, cm, in and pt, and maps to that unit |
| Schema.ParseLayerType | src/models/layer.model.ts:46-50 | a type string is accepted exactly when it names one of brush, text, shape and image, and maps to that type |
| Schema.BlendModeNamesDistinct | src/models/layer.model.ts:51-68 | the twelve blend modes have twelve distinct names |
| Schema.NewLayer | src/models/layer.model.ts:35-77 | a new layer takes the given fields and the schema defaults (blend mode normal, opacity 100, visible, unlocked, data `{}`); it passes the validators exactly when project and name are non-empty, since the default opacity lies in 0..100 |
| Schema.NewCanvas | src/models/canvas.model.ts:16-34 | a new canvas takes the given fields, and unit px when none is given |
| Schema.PatchPage | src/server.ts:181-185 | `$set` on a page: each field carried by the patch takes the new value, every other field and the id keep theirs; an empty patch changes nothing |
| Schema.PatchCanvas | src/server.ts:296-300 | `$set` on a canvas, with the same meaning |
| Schema.PatchLayer | src/server.ts:401-405 | `$set` on a layer, with the same meaning |
| Schema.SetIsIdempotent | src/server.ts:181-185 | applying the same `$set` twice gives the same record as applying it once |
| Seqs.FilterSnoc | src/services/kafka.consumer.ts:108-116 | filtering a list with one more element at the end is the old filter plus that element when it is kept |
| Seqs.FilterCount | src/services/kafka.consumer.ts:108-116 | a filter keeps every copy of a kept value and drops every copy of a dropped one |
| Seqs.FilterAppend | src/services/kafka.consumer.ts:108-116 | filtering distributes over concatenation |
| Seqs.SubseqKeepsKeys | src/server.ts:211-224 | a subsequence of a list with unique ids below a bound has unique ids below that bound |
| Seqs.SortByKey | src/server.ts:117-119 | the result is sorted by the key and is a permutation of the input |

## Left out

- The Express app, the health route, CORS and the socket.io transport. A
  broadcast is only the event value it emits.
- JWT signature and expiry checking. `jwt.verify` is an oracle parameter of
  `Auth.Authenticate`.
- The MongoDB, Redis and Kafka clients, their setup, connection failures and
  exit paths; JSON parsing of payloads; the logger. Redis reads are the `cache`
  map of `Persistence.Env`. Failed writes and failed reads are the set
  `failing`.
- The yjsdoc schema, which none of the modelled code uses.
- Interleaving of concurrent async handlers. Each handler is atomic, and
  nothing is claimed about order across handlers.
- Persistence.FireAll: a flush is modelled as performing its writes at once.
  The source discards the promises that `saver.flush()` returns, so shutdown
  does not wait for those writes to finish.
- Wall-clock time and lodash internals. The debounce runs on a logical clock
  of ticks.
- ObjectIds are natural numbers. A malformed id, which would be a cast error in
  the source, is not modelled.
- Layer ids in the persistence service are the same natural numbers. The
  source's ids are 24-digit hexadecimal ObjectId strings. `CacheKey` spells
  the decimal form instead: a stand-in encoding that is injective, like the
  real one.
- The persistence service works on a plain list of layers, apart from the
  handlers' store. The two share the `Layer` record.
- Each handler's `catch`-all for unexpected database errors is modelled only
  for schema validation failures. Those are the `Failed to create ...`
  messages.
- Patches are typed: an update whose enum field holds a string outside the
  enum is not modelled. Mongoose would store it unchecked.
- Requests whose payload lacks a field are not modelled.
- Numbers.ToNumber: covers the empty string, optional signs and decimal digits
  only. Whitespace, hexadecimal, exponent and fractional forms of `Number(...)`
  are not modelled.
- Numbers.ToNumberRejectsNonDigit: holds only of that modelled subset.
  JavaScript's `Number` accepts strings such as `"1e3"`, `"1.0"`, `"0x1A"`
  and `"12 "`, which this lemma calls NaN.
- JavaScript numbers are IEEE doubles; the model uses exact integers. Canvas
  width and height, every `order` and `opacity`, and user ids are `int`. A
  fractional order or opacity stored through a patch is not modelled, nor is
  the fractional next order it would lead to. Ids beyond 2^53, which collide
  under `Number(...)`, are not modelled either. Numbers.ToNumberShow proves
  its round trip for these exact integers only.
- Kafka retries, offsets and redelivery of a message whose handler throws are
  not modelled.
- Timestamps (`createdAt`, `updatedAt`) are not modelled.
- MetadataProperties.PageOrdersStayDense: proves one creation step from a dense
  numbering. N creations in a row follow by applying it N times; the induction
  itself is not stated as a lemma. The same holds for
  MetadataProperties.CanvasOrdersStayDense and
  MetadataProperties.LayerOrdersStayDense.

=== FILE: auth.dfy ===
/** The connection gate: every socket must present a token in its handshake,
    and the token must verify, before any event handler runs. Signature
    and expiry checking is an oracle `verify` that either decodes the token
    or fails. */
module Auth {
  import opened Basics
  import opened Numbers

  /** The fields of a decoded token the gate reads. */
  datatype Claims = Claims(id: JsValue, email: string)

  /** The identity attached to an admitted socket (`socket.data.user`). */
  datatype User = User(id: JsValue, email: string)

  datatype Admission = Admitted(user: User) | Refused(message: string)

  const NoTokenMessage: string := "Authentication error: No token provided."
  const InvalidTokenMessage: string := "Authentication error: Invalid token."

  /** The handshake check. A missing or empty token (JavaScript falsy) is
      refused before `verify` is consulted. */
  function Authenticate(token: Option<string>, verify: string -> Option<Claims>): (r: Admission)
    ensures r.Admitted? <==> token.Some? && token.value != "" && verify(token.value).Some?
    ensures (token.None? || token.value == "") ==> r == Refused(NoTokenMessage)
    ensures token.Some? && token.value != "" && verify(token.value).None? ==> r == Refused(InvalidTokenMessage)
    ensures r.Admitted? ==>
      r.user.id == verify(token.value).value.id && r.user.email == verify(token.value).value.email
  {
    if token.None? || token.value == "" then Refused(NoTokenMessage)
    else match verify(token.value)
      case None => Refused(InvalidTokenMessage)
      case Some(claims) => Admitted(User(claims.id, claims.email))
  }
}

=== FILE: basics.dfy ===
/** Shared vocabulary: optional values and bytes. */
module Basics {

  /** A value that may be absent. `None` also stands for JavaScript's
      `undefined`/`null` results (a failed `find`, a cache miss) and, for
      numbers, for `NaN`. */
  datatype Option<T> = None | Some(value: T)

  /** One byte of an opaque buffer (a CRDT snapshot). */
  type Byte = b: int | 0 <= b < 256
}

=== FILE: membership.dfy ===
/** The membership mirror: the Kafka consumer that keeps the project
    collection in step with the project and collaborator events published
    by the main backend. Each message is applied on its own; a write that
    Mongoose rejects (a duplicate or empty `_id`, an empty name, a user id
    that does not cast to a number) leaves the collection as it was. */
module Membership {
  import opened Basics
  import opened Seqs
  import opened Numbers
  import opened Schema
  import opened Storage
  import opened Auth
  import opened Permission

  const ProjectsTopic: string := "PROJECTS_V1"
  const CollaboratorsTopic: string := "COLLABORATORS_V1"

  const ProjectCreated: string := "PROJECT_CREATED"
  const ProjectDeleted: string := "PROJECT_DELETED"
  const CollaboratorAdded: string := "COLLABORATOR_ADDED"
  const CollaboratorRoleUpdated: string := "COLLABORATOR_ROLE_UPDATED"
  const CollaboratorRemoved: string := "COLLABORATOR_REMOVED"

  /** The fields of `payload.data` the consumer reads; which of them matter
      depends on the event. */
  datatype EventData = EventData(
    id: string, name: string, ownerId: JsValue,
    projectId: string, userId: JsValue, role: string, newRole: string)

  datatype Payload = Payload(event: string, data: EventData)

  /** A Kafka record; `value` is `None` for an empty (null) record. */
  datatype Message = Message(topic: string, value: Option<Payload>)

  /** Every project is filed under its own `_id`. */
  predicate KeyedById(projects: map<string, Project>)
  {
    forall k :: k in projects ==> projects[k].id == k
  }

  /** The user whose `Number(id)` is `n`. */
  predicate Denotes(user: User, n: int)
  {
    ToNumber(user.id) == Some(n)
  }

  // --------------------------------------------------------------- projects

  /** `ProjectModel.create` with the owner as sole collaborator. */
  function CreateProject(projects: map<string, Project>, id: string, name: string, ownerId: JsValue): (r: map<string, Project>)
    ensures (id in projects || !Present(id) || !Present(name) || ToNumber(ownerId).None?) ==> r == projects
    ensures r.Keys <= projects.Keys + {id}
    ensures forall k :: k in projects ==> k in r && r[k] == projects[k]
    ensures id !in projects && Present(id) && Present(name) && ToNumber(ownerId).Some? ==>
      && id in r && r[id].id == id && r[id].name == name
      && r[id].ownerId == ToNumber(ownerId).value
      && r[id].collaborators == [Collaborator(ToNumber(ownerId).value, Owner)]
  {
    if id in projects || !Present(id) || !Present(name) then projects
    else match ToNumber(ownerId)
      case None => projects
      case Some(n) => projects[id := Project(id, name, n, [Collaborator(n, Owner)])]
  }

  /** `ProjectModel.deleteOne({ _id })`; deleting a missing project is a
      no-op. */
  function DeleteProject(projects: map<string, Project>, projectId: string): (r: map<string, Project>)
    ensures projectId !in r
    ensures r.Keys == projects.Keys - {projectId}
    ensures forall k :: k in r ==> r[k] == projects[k]
  {
    projects - {projectId}
  }

  // ---------------------------------------------------------- collaborators

  /** The `$pull` condition `{ userId: n }` negated: entries that stay. */
  function NotUser(n: int): Collaborator -> bool
  {
    (c: Collaborator) => c.userId != n
  }

  /** `projects[projectId].collaborators` replaced by `cs`. */
  function WithCollaborators(projects: map<string, Project>, projectId: string, cs: seq<Collaborator>): map<string, Project>
    requires projectId in projects
  {
    projects[projectId := projects[projectId].(collaborators := cs)]
  }

  /** `$push` of `{ userId: Number(userId), role }`. Update validators are
      off, so the role is stored even when it is not in the schema's enum,
      and an already listed user gets a second entry. */
  function AddCollaborator(projects: map<string, Project>, projectId: string, userId: JsValue, role: string): (r: map<string, Project>)
    ensures r.Keys == projects.Keys
    ensures forall k :: k in projects && k != projectId ==> r[k] == projects[k]
    ensures projectId in projects && ToNumber(userId).Some? ==>
      r[projectId] == projects[projectId].(collaborators :=
        projects[projectId].collaborators + [Collaborator(ToNumber(userId).value, RoleOf(role))])
    ensures projectId !in projects || ToNumber(userId).None? ==> r == projects
  {
    if projectId !in projects then projects
    else match ToNumber(userId)
      case None => projects
      case Some(n) =>
        WithCollaborators(projects, projectId, projects[projectId].collaborators + [Collaborator(n, RoleOf(role))])
  }

  /** The positional update `$set: { "collaborators.$.role": newRole }`:
      only the first entry of the user changes. */
  function SetFirstRole(projects: map<string, Project>, projectId: string, userId: JsValue, newRole: string): (r: map<string, Project>)
    ensures r.Keys == projects.Keys
    ensures forall k :: k in projects && k != projectId ==> r[k] == projects[k]
    ensures projectId in projects ==>
      var cs := projects[projectId].collaborators;
      var ds := r[projectId].collaborators;
      && r[projectId] == projects[projectId].(collaborators := ds)
      && |ds| == |cs|
      && (forall i :: 0 <= i < |cs| && !FirstMatchAt(cs, ToNumber(userId), i) ==> ds[i] == cs[i])
      && (forall i :: FirstMatchAt(cs, ToNumber(userId), i) ==> ds[i] == Collaborator(cs[i].userId, RoleOf(newRole)))
  {
    if projectId !in projects then projects
    else
      var cs := projects[projectId].collaborators;
      var uid := ToNumber(userId);
      match FirstWhere(cs, (c: Collaborator) => IsUser(c, uid))
      case None => projects
      case Some(i) =>
        assert FirstMatchAt(cs, uid, i);
        assert forall j :: FirstMatchAt(cs, uid, j) ==> j == i by {
          forall j | FirstMatchAt(cs, uid, j) ensures j == i {
            FirstMatchUnique(cs, uid, i, j);
          }
        }
        WithCollaborators(projects, projectId, cs[i := Collaborator(cs[i].userId, RoleOf(newRole))])
  }

  /** `$pull: { collaborators: { userId } }`: every entry of the user goes. */
  function PullUser(projects: map<string, Project>, projectId: string, userId: JsValue): (r: map<string, Project>)
    ensures r.Keys == projects.Keys
    ensures forall k :: k in projects && k != projectId ==> r[k] == projects[k]
    ensures projectId in projects && ToNumber(userId).Some? ==>
      var cs := projects[projectId].collaborators;
      var ds := r[projectId].collaborators;
      && r[projectId] == projects[projectId].(collaborators := ds)
      && IsSubseq(ds, cs)
      && (forall i :: 0 <= i < |ds| ==> ds[i].userId != ToNumber(userId).value)
      && (forall i :: 0 <= i < |cs| && cs[i].userId != ToNumber(userId).value ==> cs[i] in ds)
      && (forall c: Collaborator :: c.userId != ToNumber(userId).value ==> multiset(ds)[c] == multiset(cs)[c])
    ensures projectId !in projects || ToNumber(userId).None? ==> r == projects
  {
    if projectId !in projects then projects
    else match ToNumber(userId)
      case None => projects
      case Some(n) =>
        var cs := projects[projectId].collaborators;
        assert forall c: Collaborator :: c.userId != n ==> multiset(Filter(cs, NotUser(n)))[c] == multiset(cs)[c] by {
          forall c: Collaborator | c.userId != n ensures multiset(Filter(cs, NotUser(n)))[c] == multiset(cs)[c] {
            FilterCount(cs, NotUser(n), c);
          }
        }
        WithCollaborators(projects, projectId, Filter(cs, NotUser(n)))
  }

  // ---------------------------------------------------------------- routing

  /** `eachMessage`: route one record by topic and event name. */
  function Consume(projects: map<string, Project>, msg: Message): (r: map<string, Project>)
    ensures msg.value.None? ==> r == projects
    ensures msg.topic != ProjectsTopic && msg.topic != CollaboratorsTopic ==> r == projects
    ensures msg.value.Some? && msg.topic == ProjectsTopic ==>
      var p := msg.value.value;
      && (p.event == ProjectCreated ==> r == CreateProject(projects, p.data.id, p.data.name, p.data.ownerId))
      && (p.event == ProjectDeleted ==> r == DeleteProject(projects, p.data.projectId))
      && (p.event != ProjectCreated && p.event != ProjectDeleted ==> r == projects)
    ensures msg.value.Some? && msg.topic == CollaboratorsTopic ==>
      var p := msg.value.value;
      && (p.event == CollaboratorAdded ==> r == AddCollaborator(projects, p.data.projectId, p.data.userId, p.data.role))
      && (p.event == CollaboratorRoleUpdated ==> r == SetFirstRole(projects, p.data.projectId, p.data.userId, p.data.newRole))
      && (p.event == CollaboratorRemoved ==> r == PullUser(projects, p.data.projectId, p.data.userId))
      && (p.event != CollaboratorAdded && p.event != CollaboratorRoleUpdated && p.event != CollaboratorRemoved ==> r == projects)
  {
    match msg.value
    case None => projects
    case Some(p) =>
      if msg.topic == ProjectsTopic then
        if p.event == ProjectCreated then CreateProject(projects, p.data.id, p.data.name, p.data.ownerId)
        else if p.event == ProjectDeleted then DeleteProject(projects, p.data.projectId)
        else projects
      else if msg.topic == CollaboratorsTopic then
        if p.event == CollaboratorAdded then AddCollaborator(projects, p.data.projectId, p.data.userId, p.data.role)
        else if p.event == CollaboratorRoleUpdated then SetFirstRole(projects, p.data.projectId, p.data.userId, p.data.newRole)
        else if p.event == CollaboratorRemoved then PullUser(projects, p.data.projectId, p.data.userId)
        else projects
      else projects
  }

  /** The mirror writes only the project collection: deleting a project
      leaves its pages, canvases and layers in place. */
  function ConsumeInto(s: Store, msg: Message): (t: Store)
    ensures t.pages == s.pages && t.canvases == s.canvases && t.layers == s.layers && t.nextId == s.nextId
    ensures t.projects == Consume(s.projects, msg)
  {
    s.(projects := Consume(s.projects, msg))
  }

  // ------------------------------------------------------ first-match facts

  lemma FirstMatchUnique(cs: seq<Collaborator>, uid: Option<int>, i: int, j: int)
    requires FirstMatchAt(cs, uid, i) && FirstMatchAt(cs, uid, j)
    ensures i == j
  {
  }

  /** The lookup returns the entry at the first match. */
  lemma FindAtFirstMatch(cs: seq<Collaborator>, uid: Option<int>, i: int)
    requires FirstMatchAt(cs, uid, i)
    ensures FindCollaborator(cs, uid) == Some(cs[i])
  {
    var r := FindCollaborator(cs, uid);
    var j :| FirstMatchAt(cs, uid, j) && cs[j] == r.value;
    FirstMatchUnique(cs, uid, i, j);
  }

  /** The lookup on a list with a known head. */
  lemma FindCons(x: Collaborator, rest: seq<Collaborator>, uid: Option<int>)
    ensures FindCollaborator([x] + rest, uid) ==
      if IsUser(x, uid) then Some(x) else FindCollaborator(rest, uid)
  {
    var cs := [x] + rest;
    if IsUser(x, uid) {
      FindAtFirstMatch(cs, uid, 0);
    } else {
      match FindCollaborator(rest, uid)
      case None =>
        assert forall i :: 0 <= i < |cs| ==> !IsUser(cs[i], uid) by {
          forall i | 0 <= i < |cs| ensures !IsUser(cs[i], uid) {
            if i > 0 {
              assert cs[i] == rest[i - 1];
            }
          }
        }
      case Some(c) =>
        var k :| FirstMatchAt(rest, uid, k) && rest[k] == c;
        assert FirstMatchAt(cs, uid, k + 1) by {
          forall j | 0 <= j < k + 1 ensures !IsUser(cs[j], uid) {
            if j > 0 {
              assert cs[j] == rest[j - 1];
            }
          }
        }
        FindAtFirstMatch(cs, uid, k + 1);
    }
  }

  /** The lookup on a list with one more entry at the end: an earlier
      entry of the same user shadows the new one. */
  lemma FindSnoc(cs: seq<Collaborator>, c: Collaborator, uid: Option<int>)
    ensures FindCollaborator(cs + [c], uid) ==
      if FindCollaborator(cs, uid).Some? then FindCollaborator(cs, uid)
      else if IsUser(c, uid) then Some(c) else None
  {
    var ds := cs + [c];
    match FindCollaborator(cs, uid)
    case Some(x) =>
      var i :| FirstMatchAt(cs, uid, i) && cs[i] == x;
      assert FirstMatchAt(ds, uid, i);
      FindAtFirstMatch(ds, uid, i);
    case None =>
      if IsUser(c, uid) {
        assert FirstMatchAt(ds, uid, |cs|);
        FindAtFirstMatch(ds, uid, |cs|);
      } else {
        assert forall i :: 0 <= i < |ds| ==> !IsUser(ds[i], uid);
      }
  }

  /** Pulling user `n` does not change whose entry any other user finds. */
  lemma {:induction false} PullKeepsOtherLookups(cs: seq<Collaborator>, n: int, uid: Option<int>)
    requires uid != Some(n)
    ensures FindCollaborator(Filter(cs, NotUser(n)), uid) == FindCollaborator(cs, uid)
    decreases |cs|
  {
    if |cs| > 0 {
      var rest := Filter(cs[1..], NotUser(n));
      assert cs == [cs[0]] + cs[1..];
      FindCons(cs[0], cs[1..], uid);
      PullKeepsOtherLookups(cs[1..], n, uid);
      if NotUser(n)(cs[0]) {
        FindCons(cs[0], rest, uid);
      }
    }
  }

  // ------------------------------------------------------ effects on access

  /** A freshly mirrored project can be edited by its owner. */
  lemma CreatedProjectOwnerMayEdit(projects: map<string, Project>, id: string, name: string, ownerId: JsValue, user: User)
    requires id !in projects && Present(id) && Present(name)
    requires ToNumber(ownerId).Some? && Denotes(user, ToNumber(ownerId).value)
    ensures RoleIn(CreateProject(projects, id, name, ownerId), id, user) == Some(Owner)
    ensures MayEdit(CreateProject(projects, id, name, ownerId), id, user)
  {
    var r := CreateProject(projects, id, name, ownerId);
    FindAtFirstMatch(r[id].collaborators, ToNumber(user.id), 0);
  }

  /** After `PROJECT_DELETED` nobody may join the project. */
  lemma DeletedProjectClosed(projects: map<string, Project>, projectId: string, user: User)
    ensures !MayJoin(DeleteProject(projects, projectId), projectId, user)
  {
  }

  /** After `COLLABORATOR_ADDED` the user's role is the pushed one, unless
      an earlier entry for the same user shadows it; nobody else's role
      changes. */
  lemma AddedCollaboratorRole(projects: map<string, Project>, projectId: string, userId: JsValue, role: string, user: User)
    requires projectId in projects && ToNumber(userId).Some?
    ensures var r := AddCollaborator(projects, projectId, userId, role);
      RoleIn(r, projectId, user) ==
        if RoleIn(projects, projectId, user).Some? then RoleIn(projects, projectId, user)
        else if Denotes(user, ToNumber(userId).value) then Some(RoleOf(role))
        else None
  {
    var n := ToNumber(userId).value;
    FindSnoc(projects[projectId].collaborators, Collaborator(n, RoleOf(role)), ToNumber(user.id));
  }

  /** Adding an already listed user leaves their role as it was, even when
      the event carries another role: the mirror keeps both entries and the
      lookup stops at the first. */
  lemma DuplicateAddIsShadowed(projects: map<string, Project>, projectId: string, userId: JsValue, role: string, user: User)
    requires projectId in projects && ToNumber(userId).Some? && Denotes(user, ToNumber(userId).value)
    requires MayJoin(projects, projectId, user)
    ensures var r := AddCollaborator(projects, projectId, userId, role);
      && RoleIn(r, projectId, user) == RoleIn(projects, projectId, user)
      && |r[projectId].collaborators| == |projects[projectId].collaborators| + 1
  {
    AddedCollaboratorRole(projects, projectId, userId, role, user);
  }

  /** After `COLLABORATOR_ROLE_UPDATED` a listed user has the new role;
      every other user keeps theirs. */
  lemma UpdatedRoleTakesEffect(projects: map<string, Project>, projectId: string, userId: JsValue, newRole: string, user: User)
    requires projectId in projects && ToNumber(userId).Some?
    ensures var r := SetFirstRole(projects, projectId, userId, newRole);
      && (Denotes(user, ToNumber(userId).value) && MayJoin(projects, projectId, user) ==>
            RoleIn(r, projectId, user) == Some(RoleOf(newRole)))
      && (!Denotes(user, ToNumber(userId).value) ==> RoleIn(r, projectId, user) == RoleIn(projects, projectId, user))
      && (!MayJoin(projects, projectId, user) ==> !MayJoin(r, projectId, user))
  {
    var r := SetFirstRole(projects, projectId, userId, newRole);
    var cs := projects[projectId].collaborators;
    var ds := r[projectId].collaborators;
    var n := ToNumber(userId).value;
    var uid := ToNumber(user.id);
    // Entries keep their user ids, so matching is position for position.
    assert forall i :: 0 <= i < |cs| ==> ds[i].userId == cs[i].userId by {
      forall i | 0 <= i < |cs| ensures ds[i].userId == cs[i].userId {
        if FirstMatchAt(cs, ToNumber(userId), i) {
        }
      }
    }
    assert forall i :: 0 <= i < |cs| ==> (IsUser(ds[i], uid) <==> IsUser(cs[i], uid));
    match FindCollaborator(cs, uid)
    case None =>
      assert forall i :: 0 <= i < |ds| ==> !IsUser(ds[i], uid);
    case Some(c) =>
      var i :| FirstMatchAt(cs, uid, i) && cs[i] == c;
      assert FirstMatchAt(ds, uid, i);
      FindAtFirstMatch(ds, uid, i);
      if Denotes(user, n) {
        assert FirstMatchAt(cs, ToNumber(userId), i);
      }
  }

  /** After `COLLABORATOR_REMOVED` the user can no longer join (nor edit),
      and every other user keeps their role. */
  lemma RemovedCollaboratorLosesAccess(projects: map<string, Project>, projectId: string, userId: JsValue, user: User)
    requires projectId in projects && ToNumber(userId).Some?
    ensures var r := PullUser(projects, projectId, userId);
      && (Denotes(user, ToNumber(userId).value) ==> !MayJoin(r, projectId, user) && !MayEdit(r, projectId, user))
      && (!Denotes(user, ToNumber(userId).value) ==> RoleIn(r, projectId, user) == RoleIn(projects, projectId, user))
  {
    var n := ToNumber(userId).value;
    if !Denotes(user, n) {
      PullKeepsOtherLookups(projects[projectId].collaborators, n, ToNumber(user.id));
    }
  }

  /** The mirror keeps every project filed under its own id. */
  lemma ConsumeKeepsKeyedById(projects: map<string, Project>, msg: Message)
    requires KeyedById(projects)
    ensures KeyedById(Consume(projects, msg))
  {
  }
}

=== FILE: metadata.dfy ===
/** The socket event handlers of the metadata channel. Each handler reads
    the store, checks, and then either answers the requesting socket with an
    error and leaves the store alone, or changes the store and broadcasts
    one event to the project's room. Handlers run atomically here. */
module Metadata {
  import opened Basics
  import opened Seqs
  import opened Schema
  import opened Storage
  import opened Auth
  import opened Permission

  /** The client-to-server events and their payloads. Enum-valued fields
      of create requests arrive as strings and are checked by the schema. */
  datatype Request =
    | JoinProject(projectId: string)
    | CreatePage(projectId: string, name: string)
    | UpdatePage(projectId: string, pageId: Id, pagePatch: PagePatch)
    | DeletePage(projectId: string, pageId: Id)
    | CreateCanvas(pageId: Id, projectId: string, name: string, width: int, height: int, unit: Option<string>)
    | UpdateCanvas(projectId: string, canvasId: Id, canvasPatch: CanvasPatch)
    | DeleteCanvas(projectId: string, canvasId: Id)
    | CreateLayer(canvasId: Id, projectId: string, name: string, layerType: string)
    | UpdateLayer(projectId: string, layerId: Id, layerPatch: LayerPatch)
    | DeleteLayer(projectId: string, layerId: Id)

  /** The events broadcast to a project room. */
  datatype Event =
    | PageCreated(page: Page)
    | PageUpdated(page: Page)
    | PageDeleted(pageId: Id)
    | CanvasCreated(canvas: Canvas)
    | CanvasUpdated(canvas: Canvas)
    | CanvasDeleted(canvasId: Id, projectId: string)
    | LayerCreated(layer: Layer)
    | LayerUpdated(layer: Layer)
    | LayerDeleted(layerId: Id, projectId: string)

  /** The `initial-data` payload a joining socket receives. */
  datatype InitialData = InitialData(pages: seq<Page>, canvases: seq<Canvas>, layers: seq<Layer>)

  /** What a handler emits:
      `Error` goes to the requesting socket only (`socket.emit("error")`);
      `Broadcast` goes to every socket in `room` (`io.to(room).emit`);
      `Joined` adds the socket to `room` and sends it the initial data;
      `Quiet` emits nothing. */
  datatype Outcome =
    | Error(message: string)
    | Broadcast(room: string, event: Event)
    | Joined(room: string, initial: InitialData)
    | Quiet

  datatype Reply = Reply(store: Store, outcome: Outcome)

  const ProjectNotFound := "Project not found."
  const JoinDenied := "You do not have permission to join this project."
  const CreatePageDenied := "Only owners or editors can create pages."
  const UpdatePageDenied := "Only owners or editors can update pages."
  const DeletePageDenied := "Only owners or editors can delete pages."
  const CreateCanvasDenied := "Only owners or editors can create canvases."
  const UpdateCanvasDenied := "Only owners or editors can update canvases."
  const DeleteCanvasDenied := "Only owners or editors can delete canvases."
  const CreateLayerDenied := "Only owners or editors can create layers."
  const UpdateLayerDenied := "Only owners or editors can update layers."
  const DeleteLayerDenied := "Only owners or editors can delete layers."
  const ParentPageNotFound := "Parent page not found."
  const ParentCanvasNotFound := "Parent canvas not found."
  const CreatePageFailed := "Failed to create page."
  const CreateCanvasFailed := "Failed to create canvas."
  const CreateLayerFailed := "Failed to create layer."

  // -------------------------------------------------------------------- join

  function OnJoinProject(s: Store, user: User, projectId: string): (r: Reply)
    ensures r.store == s
    ensures projectId !in s.projects ==> r.outcome == Error(ProjectNotFound)
    ensures projectId in s.projects && !MayJoin(s.projects, projectId, user) ==> r.outcome == Error(JoinDenied)
    ensures r.outcome.Joined? <==> MayJoin(s.projects, projectId, user)
    ensures r.outcome.Joined? ==>
      var d := r.outcome.initial;
      && r.outcome.room == projectId
      && SortedBy(d.pages, PageOrder) && multiset(d.pages) == multiset(PagesOf(s.pages, projectId))
      && SortedBy(d.canvases, CanvasOrder) && multiset(d.canvases) == multiset(CanvasesOfProject(s.canvases, projectId))
      && SortedBy(d.layers, LayerOrder) && multiset(d.layers) == multiset(LayersOfProject(s.layers, projectId))
  {
    if projectId !in s.projects then Reply(s, Error(ProjectNotFound))
    else if !MayJoin(s.projects, projectId, user) then Reply(s, Error(JoinDenied))
    else
      Reply(s, Joined(projectId, InitialData(
        SortByKey(PagesOf(s.pages, projectId), PageOrder),
        SortByKey(CanvasesOfProject(s.canvases, projectId), CanvasOrder),
        SortByKey(LayersOfProject(s.layers, projectId), LayerOrder))))
  }

  // ---------------------------------------------------------------- creation

  /** A new sibling is numbered one past the largest sibling order, or 0
      when it has no siblings. */
  predicate FollowsSiblings(order: int, siblings: seq<int>)
  {
    && (forall i :: 0 <= i < |siblings| ==> siblings[i] < order)
    && (|siblings| == 0 ==> order == 0)
    && (|siblings| > 0 ==> order - 1 in siblings)
  }

  /** `t` is `s` with page `p` appended under a fresh id. */
  predicate PageAppended(s: Store, t: Store, p: Page, projectId: string, name: string)
  {
    && t == s.(pages := s.pages + [p], nextId := s.nextId + 1)
    && p.id == s.nextId && p.projectId == projectId && p.name == name
    && FollowsSiblings(p.order, PageOrders(s.pages, projectId))
  }

  function OnCreatePage(s: Store, user: User, projectId: string, name: string): (r: Reply)
    ensures !MayEdit(s.projects, projectId, user) ==> r == Reply(s, Error(CreatePageDenied))
    ensures r.outcome.Broadcast? <==> MayEdit(s.projects, projectId, user) && Present(projectId) && Present(name)
    ensures !r.outcome.Broadcast? ==> r.store == s && r.outcome.Error?
    ensures r.outcome.Broadcast? ==>
      && r.outcome.room == projectId && r.outcome.event.PageCreated?
      && PageAppended(s, r.store, r.outcome.event.page, projectId, name)
  {
    if !MayEdit(s.projects, projectId, user) then Reply(s, Error(CreatePageDenied))
    else if !Present(projectId) || !Present(name) then Reply(s, Error(CreatePageFailed))
    else
      var p := Page(s.nextId, projectId, name, NextOrder(PageOrders(s.pages, projectId)));
      Reply(s.(pages := s.pages + [p], nextId := s.nextId + 1), Broadcast(projectId, PageCreated(p)))
  }

  /** `t` is `s` with canvas `c` appended under a fresh id. */
  predicate CanvasAppended(s: Store, t: Store, c: Canvas, pageId: Id, projectId: string, name: string, width: int, height: int, unit: Option<string>)
  {
    && t == s.(canvases := s.canvases + [c], nextId := s.nextId + 1)
    && c.id == s.nextId && c.pageId == pageId && c.projectId == projectId && c.name == name
    && c.width == width && c.height == height
    && (unit.None? ==> c.unit == DefaultUnit)
    && (unit.Some? ==> UnitName(c.unit) == unit.value)
    && FollowsSiblings(c.order, CanvasOrders(s.canvases, pageId))
  }

  /** The schema validation a new canvas must pass. */
  predicate CanvasFieldsValid(projectId: string, name: string, unit: Option<string>)
  {
    Present(projectId) && Present(name) && (unit.Some? ==> ParseUnit(unit.value).Some?)
  }

  function OnCreateCanvas(s: Store, user: User, pageId: Id, projectId: string, name: string, width: int, height: int, unit: Option<string>): (r: Reply)
    ensures !MayEdit(s.projects, projectId, user) ==> r == Reply(s, Error(CreateCanvasDenied))
    ensures MayEdit(s.projects, projectId, user) && !HasPage(s.pages, pageId) ==> r == Reply(s, Error(ParentPageNotFound))
    ensures r.outcome.Broadcast? <==>
      MayEdit(s.projects, projectId, user) && HasPage(s.pages, pageId) && CanvasFieldsValid(projectId, name, unit)
    ensures !r.outcome.Broadcast? ==> r.store == s && r.outcome.Error?
    ensures r.outcome.Broadcast? ==>
      && r.outcome.room == projectId && r.outcome.event.CanvasCreated?
      && CanvasAppended(s, r.store, r.outcome.event.canvas, pageId, projectId, name, width, height, unit)
  {
    if !MayEdit(s.projects, projectId, user) then Reply(s, Error(CreateCanvasDenied))
    else if FindPage(s.pages, pageId).None? then Reply(s, Error(ParentPageNotFound))
    else if !CanvasFieldsValid(projectId, name, unit) then Reply(s, Error(CreateCanvasFailed))
    else
      var u := if unit.Some? then ParseUnit(unit.value) else None;
      var c := NewCanvas(s.nextId, pageId, projectId, name, NextOrder(CanvasOrders(s.canvases, pageId)), width, height, u);
      Reply(s.(canvases := s.canvases + [c], nextId := s.nextId + 1), Broadcast(projectId, CanvasCreated(c)))
  }

  /** `t` is `s` with layer `l` appended under a fresh id, with the
      schema's defaults for everything the request does not carry. */
  predicate LayerAppended(s: Store, t: Store, l: Layer, canvasId: Id, projectId: string, name: string, layerType: string)
  {
    && t == s.(layers := s.layers + [l], nextId := s.nextId + 1)
    && l.id == s.nextId && l.canvasId == canvasId && l.projectId == projectId && l.name == name
    && LayerTypeName(l.layerType) == layerType
    && l.blendMode == DefaultBlendMode && l.opacity == DefaultOpacity
    && l.isVisible && !l.isLocked && l.data == EmptyObject
    && ValidLayer(l)
    && FollowsSiblings(l.order, LayerOrders(s.layers, canvasId))
  }

  /** The schema validation a new layer must pass. */
  predicate LayerFieldsValid(projectId: string, name: string, layerType: string)
  {
    Present(projectId) && Present(name) && ParseLayerType(layerType).Some?
  }

  function OnCreateLayer(s: Store, user: User, canvasId: Id, projectId: string, name: string, layerType: string): (r: Reply)
    ensures !MayEdit(s.projects, projectId, user) ==> r == Reply(s, Error(CreateLayerDenied))
    ensures MayEdit(s.projects, projectId, user) && !HasCanvas(s.canvases, canvasId) ==> r == Reply(s, Error(ParentCanvasNotFound))
    ensures r.outcome.Broadcast? <==>
      MayEdit(s.projects, projectId, user) && HasCanvas(s.canvases, canvasId) && LayerFieldsValid(projectId, name, layerType)
    ensures !r.outcome.Broadcast? ==> r.store == s && r.outcome.Error?
    ensures r.outcome.Broadcast? ==>
      && r.outcome.room == projectId && r.outcome.event.LayerCreated?
      && LayerAppended(s, r.store, r.outcome.event.layer, canvasId, projectId, name, layerType)
  {
    if !MayEdit(s.projects, projectId, user) then Reply(s, Error(CreateLayerDenied))
    else if FindCanvas(s.canvases, canvasId).None? then Reply(s, Error(ParentCanvasNotFound))
    else if !LayerFieldsValid(projectId, name, layerType) then Reply(s, Error(CreateLayerFailed))
    else
      var l := NewLayer(s.nextId, canvasId, projectId, name, NextOrder(LayerOrders(s.layers, canvasId)), ParseLayerType(layerType).value);
      Reply(s.(layers := s.layers + [l], nextId := s.nextId + 1), Broadcast(projectId, LayerCreated(l)))
  }

  // ----------------------------------------------------------------- updates

  function OnUpdatePage(s: Store, user: User, projectId: string, pageId: Id, patch: PagePatch): (r: Reply)
    ensures !MayEdit(s.projects, projectId, user) ==> r == Reply(s, Error(UpdatePageDenied))
    ensures MayEdit(s.projects, projectId, user) && !HasPage(s.pages, pageId) ==> r == Reply(s, Quiet)
    ensures MayEdit(s.projects, projectId, user) && HasPage(s.pages, pageId) ==> r.outcome.Broadcast?
    ensures r.store == s.(pages := r.store.pages)
    ensures |r.store.pages| == |s.pages|
    ensures MayEdit(s.projects, projectId, user) ==> forall i :: 0 <= i < |s.pages| ==>
      r.store.pages[i] == if s.pages[i].id == pageId then PatchPage(s.pages[i], patch) else s.pages[i]
    ensures r.outcome.Broadcast? ==>
      r.outcome.room == projectId && r.outcome.event.PageUpdated?
      && r.outcome.event.page in r.store.pages && r.outcome.event.page.id == pageId
    ensures r.outcome.Broadcast? || r.store == s
  {
    if !MayEdit(s.projects, projectId, user) then Reply(s, Error(UpdatePageDenied))
    else match FindPage(s.pages, pageId)
      case None =>
        Reply(s, Quiet)
      case Some(p) =>
        var pages := UpdateWhere(s.pages, (q: Page) => q.id == pageId, (q: Page) => PatchPage(q, patch));
        assert PatchPage(p, patch) in pages by {
          var i :| 0 <= i < |s.pages| && s.pages[i] == p;
          assert pages[i] == PatchPage(p, patch);
        }
        Reply(s.(pages := pages), Broadcast(projectId, PageUpdated(PatchPage(p, patch))))
  }

  function OnUpdateCanvas(s: Store, user: User, projectId: string, canvasId: Id, patch: CanvasPatch): (r: Reply)
    ensures !MayEdit(s.projects, projectId, user) ==> r == Reply(s, Error(UpdateCanvasDenied))
    ensures MayEdit(s.projects, projectId, user) && !HasCanvas(s.canvases, canvasId) ==> r == Reply(s, Quiet)
    ensures MayEdit(s.projects, projectId, user) && HasCanvas(s.canvases, canvasId) ==> r.outcome.Broadcast?
    ensures r.store == s.(canvases := r.store.canvases)
    ensures |r.store.canvases| == |s.canvases|
    ensures MayEdit(s.projects, projectId, user) ==> forall i :: 0 <= i < |s.canvases| ==>
      r.store.canvases[i] == if s.canvases[i].id == canvasId then PatchCanvas(s.canvases[i], patch) else s.canvases[i]
    ensures r.outcome.Broadcast? ==>
      r.outcome.room == projectId && r.outcome.event.CanvasUpdated?
      && r.outcome.event.canvas in r.store.canvases && r.outcome.event.canvas.id == canvasId
    ensures r.outcome.Broadcast? || r.store == s
  {
    if !MayEdit(s.projects, projectId, user) then Reply(s, Error(UpdateCanvasDenied))
    else match FindCanvas(s.canvases, canvasId)
      case None =>
        Reply(s, Quiet)
      case Some(c) =>
        var canvases := UpdateWhere(s.canvases, (q: Canvas) => q.id == canvasId, (q: Canvas) => PatchCanvas(q, patch));
        assert PatchCanvas(c, patch) in canvases by {
          var i :| 0 <= i < |s.canvases| && s.canvases[i] == c;
          assert canvases[i] == PatchCanvas(c, patch);
        }
        Reply(s.(canvases := canvases), Broadcast(projectId, CanvasUpdated(PatchCanvas(c, patch))))
  }

  /** `if (updates.data) delete updates.data`: a truthy `data` is dropped
      from the patch, a falsy one is kept. */
  function StripData(patch: LayerPatch): (r: LayerPatch)
    ensures r == patch.(data := r.data)
    ensures r.data.Some? ==> r.data == patch.data && !Truthy(r.data.value)
    ensures patch.data.Some? && !Truthy(patch.data.value) ==> r.data == patch.data
  {
    if patch.data.Some? && Truthy(patch.data.value) then patch.(data := None) else patch
  }

  function OnUpdateLayer(s: Store, user: User, projectId: string, layerId: Id, patch: LayerPatch): (r: Reply)
    ensures !MayEdit(s.projects, projectId, user) ==> r == Reply(s, Error(UpdateLayerDenied))
    ensures MayEdit(s.projects, projectId, user) && !HasLayer(s.layers, layerId) ==> r == Reply(s, Quiet)
    ensures MayEdit(s.projects, projectId, user) && HasLayer(s.layers, layerId) ==> r.outcome.Broadcast?
    ensures r.store == s.(layers := r.store.layers)
    ensures |r.store.layers| == |s.layers|
    ensures MayEdit(s.projects, projectId, user) ==> forall i :: 0 <= i < |s.layers| ==>
      r.store.layers[i] == if s.layers[i].id == layerId then PatchLayer(s.layers[i], StripData(patch)) else s.layers[i]
    // the stored snapshot survives unless the patch carries a falsy `data`
    ensures forall i :: 0 <= i < |s.layers| ==>
      r.store.layers[i].data ==
        if s.layers[i].id == layerId && patch.data.Some? && !Truthy(patch.data.value) && MayEdit(s.projects, projectId, user)
        then patch.data.value else s.layers[i].data
    ensures r.outcome.Broadcast? ==>
      r.outcome.room == projectId && r.outcome.event.LayerUpdated?
      && r.outcome.event.layer in r.store.layers && r.outcome.event.layer.id == layerId
    ensures r.outcome.Broadcast? || r.store == s
  {
    if !MayEdit(s.projects, projectId, user) then Reply(s, Error(UpdateLayerDenied))
    else match FindLayer(s.layers, layerId)
      case None =>
        Reply(s, Quiet)
      case Some(l) =>
        var clean := StripData(patch);
        var layers := UpdateWhere(s.layers, (q: Layer) => q.id == layerId, (q: Layer) => PatchLayer(q, clean));
        assert PatchLayer(l, clean) in layers by {
          var i :| 0 <= i < |s.layers| && s.layers[i] == l;
          assert layers[i] == PatchLayer(l, clean);
        }
        Reply(s.(layers := layers), Broadcast(projectId, LayerUpdated(PatchLayer(l, clean))))
  }

  // --------------------------------------------------------------- deletions

  /** Layer `l` hangs off a canvas of page `pageId` in `canvases`. */
  predicate UnderPage(canvases: seq<Canvas>, l: Layer, pageId: Id)
  {
    exists j :: 0 <= j < |canvases| && canvases[j].pageId == pageId && canvases[j].id == l.canvasId
  }

  /** Nothing of page `pageId` survives in `t`, and everything else of `s`
      does, in its original order. */
  predicate PageCascade(s: Store, t: Store, pageId: Id)
  {
    && t.projects == s.projects && t.nextId == s.nextId
    && (forall i :: 0 <= i < |t.pages| ==> t.pages[i].id != pageId)
    && (forall i :: 0 <= i < |t.canvases| ==> t.canvases[i].pageId != pageId)
    && (forall i :: 0 <= i < |t.layers| ==> !UnderPage(s.canvases, t.layers[i], pageId))
    && (forall i :: 0 <= i < |s.pages| && s.pages[i].id != pageId ==> s.pages[i] in t.pages)
    && (forall i :: 0 <= i < |s.canvases| && s.canvases[i].pageId != pageId ==> s.canvases[i] in t.canvases)
    && (forall i :: 0 <= i < |s.layers| && !UnderPage(s.canvases, s.layers[i], pageId) ==> s.layers[i] in t.layers)
    && IsSubseq(t.pages, s.pages) && IsSubseq(t.canvases, s.canvases) && IsSubseq(t.layers, s.layers)
  }

  /** The three deletions of `delete-page`: layers of the page's canvases
      (only when there are such canvases), the canvases, then the page. */
  function CascadePage(s: Store, pageId: Id): (t: Store)
    ensures PageCascade(s, t, pageId)
  {
    var doomed := MapSeq(CanvasesOfPage(s.canvases, pageId), CanvasKey);
    var layers := if |doomed| > 0 then Filter(s.layers, (l: Layer) => l.canvasId !in doomed) else s.layers;
    assert IsSubseq(layers, s.layers) by {
      SubseqReflexive(s.layers);
    }
    assert forall l: Layer :: UnderPage(s.canvases, l, pageId) <==> l.canvasId in doomed by {
      forall l: Layer ensures UnderPage(s.canvases, l, pageId) <==> l.canvasId in doomed {
        DoomedIds(s.canvases, pageId, l);
      }
    }
    s.(pages := Filter(s.pages, (p: Page) => p.id != pageId),
       canvases := Filter(s.canvases, (c: Canvas) => c.pageId != pageId),
       layers := layers)
  }

  lemma DoomedIds(canvases: seq<Canvas>, pageId: Id, l: Layer)
    ensures UnderPage(canvases, l, pageId) <==> l.canvasId in MapSeq(CanvasesOfPage(canvases, pageId), CanvasKey)
  {
    var own := CanvasesOfPage(canvases, pageId);
    var doomed := MapSeq(own, CanvasKey);
    if UnderPage(canvases, l, pageId) {
      var j :| 0 <= j < |canvases| && canvases[j].pageId == pageId && canvases[j].id == l.canvasId;
      assert canvases[j] in own;
      var k :| 0 <= k < |own| && own[k] == canvases[j];
      assert doomed[k] == l.canvasId;
    }
    if l.canvasId in doomed {
      var k :| 0 <= k < |doomed| && doomed[k] == l.canvasId;
      assert own[k] in canvases;
      var j :| 0 <= j < |canvases| && canvases[j] == own[k];
    }
  }

  function OnDeletePage(s: Store, user: User, projectId: string, pageId: Id): (r: Reply)
    ensures !MayEdit(s.projects, projectId, user) ==> r == Reply(s, Error(DeletePageDenied))
    ensures MayEdit(s.projects, projectId, user) ==>
      r.outcome == Broadcast(projectId, PageDeleted(pageId)) && PageCascade(s, r.store, pageId)
  {
    if !MayEdit(s.projects, projectId, user) then Reply(s, Error(DeletePageDenied))
    else Reply(CascadePage(s, pageId), Broadcast(projectId, PageDeleted(pageId)))
  }

  /** Nothing of canvas `canvasId` survives in `t`, and everything else of
      `s` does, in its original order. */
  predicate CanvasCascade(s: Store, t: Store, canvasId: Id)
  {
    && t.projects == s.projects && t.nextId == s.nextId && t.pages == s.pages
    && (forall i :: 0 <= i < |t.canvases| ==> t.canvases[i].id != canvasId)
    && (forall i :: 0 <= i < |t.layers| ==> t.layers[i].canvasId != canvasId)
    && (forall i :: 0 <= i < |s.canvases| && s.canvases[i].id != canvasId ==> s.canvases[i] in t.canvases)
    && (forall i :: 0 <= i < |s.layers| && s.layers[i].canvasId != canvasId ==> s.layers[i] in t.layers)
    && IsSubseq(t.canvases, s.canvases) && IsSubseq(t.layers, s.layers)
  }

  function CascadeCanvas(s: Store, canvasId: Id): (t: Store)
    ensures CanvasCascade(s, t, canvasId)
  {
    s.(layers := Filter(s.layers, (l: Layer) => l.canvasId != canvasId),
       canvases := Filter(s.canvases, (c: Canvas) => c.id != canvasId))
  }

  function OnDeleteCanvas(s: Store, user: User, projectId: string, canvasId: Id): (r: Reply)
    ensures !MayEdit(s.projects, projectId, user) ==> r == Reply(s, Error(DeleteCanvasDenied))
    ensures MayEdit(s.projects, projectId, user) ==>
      r.outcome == Broadcast(projectId, CanvasDeleted(canvasId, projectId)) && CanvasCascade(s, r.store, canvasId)
  {
    if !MayEdit(s.projects, projectId, user) then Reply(s, Error(DeleteCanvasDenied))
    else Reply(CascadeCanvas(s, canvasId), Broadcast(projectId, CanvasDeleted(canvasId, projectId)))
  }

  function OnDeleteLayer(s: Store, user: User, projectId: string, layerId: Id): (r: Reply)
    ensures !MayEdit(s.projects, projectId, user) ==> r == Reply(s, Error(DeleteLayerDenied))
    ensures MayEdit(s.projects, projectId, user) ==>
      && r.outcome == Broadcast(projectId, LayerDeleted(layerId, projectId))
      && r.store == s.(layers := r.store.layers)
      && (forall i :: 0 <= i < |r.store.layers| ==> r.store.layers[i].id != layerId)
      && (forall i :: 0 <= i < |s.layers| && s.layers[i].id != layerId ==> s.layers[i] in r.store.layers)
      && IsSubseq(r.store.layers, s.layers)
  {
    if !MayEdit(s.projects, projectId, user) then Reply(s, Error(DeleteLayerDenied))
    else
      Reply(s.(layers := Filter(s.layers, (l: Layer) => l.id != layerId)),
            Broadcast(projectId, LayerDeleted(layerId, projectId)))
  }

  // ---------------------------------------------------------------- dispatch

  predicate IsMutation(req: Request)
  {
    !req.JoinProject?
  }

  /** Route one event of an admitted socket to its handler. */
  function Dispatch(s: Store, user: User, req: Request): (r: Reply)
    ensures r.store.projects == s.projects
    ensures IsMutation(req) && !MayEdit(s.projects, req.projectId, user) ==> r.store == s && r.outcome.Error?
    ensures !r.outcome.Broadcast? ==> r.store == s
    ensures r.outcome.Broadcast? ==> r.outcome.room == req.projectId && MayEdit(s.projects, req.projectId, user)
    ensures r.outcome.Joined? ==> req.JoinProject? && MayJoin(s.projects, req.projectId, user)
  {
    match req
    case JoinProject(pid) => OnJoinProject(s, user, pid)
    case CreatePage(pid, name) => OnCreatePage(s, user, pid, name)
    case UpdatePage(pid, id, patch) => OnUpdatePage(s, user, pid, id, patch)
    case DeletePage(pid, id) => OnDeletePage(s, user, pid, id)
    case CreateCanvas(pageId, pid, name, w, h, unit) => OnCreateCanvas(s, user, pageId, pid, name, w, h, unit)
    case UpdateCanvas(pid, id, patch) => OnUpdateCanvas(s, user, pid, id, patch)
    case DeleteCanvas(pid, id) => OnDeleteCanvas(s, user, pid, id)
    case CreateLayer(canvasId, pid, name, t) => OnCreateLayer(s, user, canvasId, pid, name, t)
    case UpdateLayer(pid, id, patch) => OnUpdateLayer(s, user, pid, id, patch)
    case DeleteLayer(pid, id) => OnDeleteLayer(s, user, pid, id)
  }
}

=== FILE: metadata_properties.dfy ===
/** Properties of the metadata handlers that relate several calls: the
    store's well-formedness is an invariant of every event, sequential
    creation numbers siblings densely, and two places where the handlers do
    not tie a request's project to the records it touches. */
module MetadataProperties {
  import opened Basics
  import opened Seqs
  import opened Numbers
  import opened Schema
  import opened Storage
  import opened Auth
  import opened Permission
  import opened Metadata

  // ------------------------------------------------------------- invariant

  lemma DeletionKeepsWellFormed(s: Store, t: Store)
    requires WellFormed(s) && t.nextId == s.nextId
    requires IsSubseq(t.pages, s.pages) && IsSubseq(t.canvases, s.canvases) && IsSubseq(t.layers, s.layers)
    ensures WellFormed(t)
  {
    SubseqKeepsKeys(t.pages, s.pages, PageKey, s.nextId);
    SubseqKeepsKeys(t.canvases, s.canvases, CanvasKey, s.nextId);
    SubseqKeepsKeys(t.layers, s.layers, LayerKey, s.nextId);
  }

  lemma CreatePageKeepsWellFormed(s: Store, user: User, projectId: string, name: string)
    requires WellFormed(s)
    ensures WellFormed(OnCreatePage(s, user, projectId, name).store)
  {
    var r := OnCreatePage(s, user, projectId, name);
    if r.outcome.Broadcast? {
      AppendFreshKey(s.pages, r.outcome.event.page, PageKey, s.nextId);
    }
  }

  lemma CreateCanvasKeepsWellFormed(s: Store, user: User, pageId: Id, projectId: string, name: string, width: int, height: int, unit: Option<string>)
    requires WellFormed(s)
    ensures WellFormed(OnCreateCanvas(s, user, pageId, projectId, name, width, height, unit).store)
  {
    var r := OnCreateCanvas(s, user, pageId, projectId, name, width, height, unit);
    if r.outcome.Broadcast? {
      AppendFreshKey(s.canvases, r.outcome.event.canvas, CanvasKey, s.nextId);
    }
  }

  lemma CreateLayerKeepsWellFormed(s: Store, user: User, canvasId: Id, projectId: string, name: string, layerType: string)
    requires WellFormed(s)
    ensures WellFormed(OnCreateLayer(s, user, canvasId, projectId, name, layerType).store)
  {
    var r := OnCreateLayer(s, user, canvasId, projectId, name, layerType);
    if r.outcome.Broadcast? {
      AppendFreshKey(s.layers, r.outcome.event.layer, LayerKey, s.nextId);
    }
  }

  lemma UpdatePageKeepsWellFormed(s: Store, user: User, projectId: string, id: Id, patch: PagePatch)
    requires WellFormed(s)
    ensures WellFormed(OnUpdatePage(s, user, projectId, id, patch).store)
  {
    SameKeys(s.pages, OnUpdatePage(s, user, projectId, id, patch).store.pages, PageKey, s.nextId);
  }

  lemma UpdateCanvasKeepsWellFormed(s: Store, user: User, projectId: string, id: Id, patch: CanvasPatch)
    requires WellFormed(s)
    ensures WellFormed(OnUpdateCanvas(s, user, projectId, id, patch).store)
  {
    SameKeys(s.canvases, OnUpdateCanvas(s, user, projectId, id, patch).store.canvases, CanvasKey, s.nextId);
  }

  lemma UpdateLayerKeepsWellFormed(s: Store, user: User, projectId: string, id: Id, patch: LayerPatch)
    requires WellFormed(s)
    ensures WellFormed(OnUpdateLayer(s, user, projectId, id, patch).store)
  {
    SameKeys(s.layers, OnUpdateLayer(s, user, projectId, id, patch).store.layers, LayerKey, s.nextId);
  }

  lemma DeletesKeepWellFormed(s: Store, user: User, projectId: string, id: Id)
    requires WellFormed(s)
    ensures WellFormed(OnDeletePage(s, user, projectId, id).store)
    ensures WellFormed(OnDeleteCanvas(s, user, projectId, id).store)
    ensures WellFormed(OnDeleteLayer(s, user, projectId, id).store)
  {
    SubseqReflexive(s.pages);
    SubseqReflexive(s.canvases);
    SubseqReflexive(s.layers);
    DeletionKeepsWellFormed(s, OnDeletePage(s, user, projectId, id).store);
    DeletionKeepsWellFormed(s, OnDeleteCanvas(s, user, projectId, id).store);
    DeletionKeepsWellFormed(s, OnDeleteLayer(s, user, projectId, id).store);
  }

  /** Every event an admitted socket sends keeps ids unique and handed out. */
  lemma DispatchPreservesWellFormed(s: Store, user: User, req: Request)
    requires WellFormed(s)
    ensures WellFormed(Dispatch(s, user, req).store)
  {
    match req {
      case JoinProject(_) =>
      case CreatePage(pid, name) =>
        CreatePageKeepsWellFormed(s, user, pid, name);
      case CreateCanvas(pageId, pid, name, w, h, unit) =>
        CreateCanvasKeepsWellFormed(s, user, pageId, pid, name, w, h, unit);
      case CreateLayer(canvasId, pid, name, lt) =>
        CreateLayerKeepsWellFormed(s, user, canvasId, pid, name, lt);
      case UpdatePage(pid, id, patch) =>
        UpdatePageKeepsWellFormed(s, user, pid, id, patch);
      case UpdateCanvas(pid, id, patch) =>
        UpdateCanvasKeepsWellFormed(s, user, pid, id, patch);
      case UpdateLayer(pid, id, patch) =>
        UpdateLayerKeepsWellFormed(s, user, pid, id, patch);
      case DeletePage(pid, id) =>
        DeletesKeepWellFormed(s, user, pid, id);
      case DeleteCanvas(pid, id) =>
        DeletesKeepWellFormed(s, user, pid, id);
      case DeleteLayer(pid, id) =>
        DeletesKeepWellFormed(s, user, pid, id);
    }
  }

  /** Running a sequence of requests from one socket keeps the invariant. */
  function RunRequests(s: Store, user: User, reqs: seq<Request>): Store
    decreases |reqs|
  {
    if |reqs| == 0 then s else RunRequests(Dispatch(s, user, reqs[0]).store, user, reqs[1..])
  }

  lemma {:induction false} RunRequestsPreservesWellFormed(s: Store, user: User, reqs: seq<Request>)
    requires WellFormed(s)
    ensures WellFormed(RunRequests(s, user, reqs))
    decreases |reqs|
  {
    if |reqs| > 0 {
      DispatchPreservesWellFormed(s, user, reqs[0]);
      RunRequestsPreservesWellFormed(Dispatch(s, user, reqs[0]).store, user, reqs[1..]);
    }
  }

  // -------------------------------------------------------- dense ordering

  /** A sibling that follows the orders `0..k-1` gets order `k`. */
  lemma FollowsRange(order: int, k: nat)
    requires FollowsSiblings(order, Range(k))
    ensures order == k
  {
    if k > 0 {
      assert Range(k)[k - 1] == k - 1;
    }
  }

  /** If a project's pages carry the orders `0..k-1`, a page created in it
      gets order `k`, so they then carry `0..k`: creating pages one after
      another numbers them densely from 0. */
  lemma PageOrdersStayDense(s: Store, user: User, projectId: string, name: string, k: nat)
    requires MayEdit(s.projects, projectId, user) && Present(projectId) && Present(name)
    requires PageOrders(s.pages, projectId) == Range(k)
    ensures var r := OnCreatePage(s, user, projectId, name);
      && r.outcome.Broadcast? && r.outcome.event.page.order == k
      && MayEdit(r.store.projects, projectId, user)
      && PageOrders(r.store.pages, projectId) == Range(k + 1)
  {
    var r := OnCreatePage(s, user, projectId, name);
    var p := r.outcome.event.page;
    FollowsRange(p.order, k);
    MapFilterSnoc(s.pages, p, PageInProject(projectId), PageOrder);
  }

  /** The same for the canvases of a page. */
  lemma CanvasOrdersStayDense(s: Store, user: User, pageId: Id, projectId: string, name: string, width: int, height: int, unit: Option<string>, k: nat)
    requires MayEdit(s.projects, projectId, user) && CanvasFieldsValid(projectId, name, unit) && HasPage(s.pages, pageId)
    requires CanvasOrders(s.canvases, pageId) == Range(k)
    ensures var r := OnCreateCanvas(s, user, pageId, projectId, name, width, height, unit);
      && r.outcome.Broadcast? && r.outcome.event.canvas.order == k
      && MayEdit(r.store.projects, projectId, user) && r.store.pages == s.pages
      && CanvasOrders(r.store.canvases, pageId) == Range(k + 1)
  {
    var r := OnCreateCanvas(s, user, pageId, projectId, name, width, height, unit);
    var c := r.outcome.event.canvas;
    FollowsRange(c.order, k);
    MapFilterSnoc(s.canvases, c, CanvasOnPage(pageId), CanvasOrder);
  }

  /** The same for the layers of a canvas. */
  lemma LayerOrdersStayDense(s: Store, user: User, canvasId: Id, projectId: string, name: string, layerType: string, k: nat)
    requires MayEdit(s.projects, projectId, user) && HasCanvas(s.canvases, canvasId)
    requires LayerFieldsValid(projectId, name, layerType)
    requires LayerOrders(s.layers, canvasId) == Range(k)
    ensures var r := OnCreateLayer(s, user, canvasId, projectId, name, layerType);
      && r.outcome.Broadcast? && r.outcome.event.layer.order == k
      && MayEdit(r.store.projects, projectId, user) && r.store.canvases == s.canvases
      && LayerOrders(r.store.layers, canvasId) == Range(k + 1)
  {
    var r := OnCreateLayer(s, user, canvasId, projectId, name, layerType);
    var l := r.outcome.event.layer;
    FollowsRange(l.order, k);
    MapFilterSnoc(s.layers, l, LayerOnCanvas(canvasId), LayerOrder);
  }

  // ------------------------------------------- project scoping of requests

  /** `create-canvas` checks that the parent page exists but not that it
      belongs to the request's project: the new canvas records the
      request's project even when the page lies in another one. */
  lemma CanvasMayLandOnForeignPage(s: Store, user: User, pageId: Id, projectId: string, name: string, width: int, height: int)
    requires MayEdit(s.projects, projectId, user) && Present(projectId) && Present(name)
    requires HasPage(s.pages, pageId) && FindPage(s.pages, pageId).value.projectId != projectId
    ensures var r := OnCreateCanvas(s, user, pageId, projectId, name, width, height, None);
      r.outcome.Broadcast? && r.outcome.event.canvas.pageId == pageId
      && r.outcome.event.canvas.projectId != FindPage(s.pages, pageId).value.projectId
  {
  }

  /** `delete-page` authorises against the request's project and then
      deletes the page by id wherever it lies. */
  lemma DeletePageIgnoresPageProject(s: Store, user: User, projectId: string, pageId: Id)
    requires MayEdit(s.projects, projectId, user)
    requires HasPage(s.pages, pageId) && FindPage(s.pages, pageId).value.projectId != projectId
    ensures var r := OnDeletePage(s, user, projectId, pageId);
      r.outcome.Broadcast? && !HasPage(r.store.pages, pageId)
  {
  }

  // ---------------------------------------------------------------- scenario

  // Worked illustrations on one fixed store. The all-inputs facts they
  // instantiate are CanvasOrdersStayDense and the cascade contract of
  // OnDeletePage; these lemmas only show them on concrete data.

  /** Project "P" is owned by user 1, user 7 edits it, and page "Home"
      (order 0) has no canvases yet. */
  function HomeStore(): Store
  {
    Store(map["P" := Project("P", "Proj", 1, [Collaborator(1, Owner), Collaborator(7, Editor)])],
          [Page(0, "P", "Home", 0)], [], [], 1)
  }

  function Editor7(): User
  {
    User(Num(7), "u@example.com")
  }

  function Art(): Canvas  { Canvas(1, 0, "P", "Art", 0, 800, 600, Px) }
  function Art2(): Canvas { Canvas(2, 0, "P", "Art2", 1, 800, 600, Px) }

  lemma ScenarioCreatesArt()
    ensures OnCreateCanvas(HomeStore(), Editor7(), 0, "P", "Art", 800, 600, None)
         == Reply(HomeStore().(canvases := [Art()], nextId := 2), Broadcast("P", CanvasCreated(Art())))
  {
    var s := HomeStore();
    assert FirstMatchAt(s.projects["P"].collaborators, Some(7), 1);
    assert s.pages[0].id == 0;
    CanvasOrdersStayDense(s, Editor7(), 0, "P", "Art", 800, 600, None, 0);
  }

  lemma ScenarioCreatesArt2()
    ensures var s := HomeStore().(canvases := [Art()], nextId := 2);
      OnCreateCanvas(s, Editor7(), 0, "P", "Art2", 800, 600, None)
         == Reply(s.(canvases := [Art(), Art2()], nextId := 3), Broadcast("P", CanvasCreated(Art2())))
  {
    var s := HomeStore().(canvases := [Art()], nextId := 2);
    assert FirstMatchAt(s.projects["P"].collaborators, Some(7), 1);
    assert s.pages[0].id == 0;
    assert CanvasOrders(s.canvases, 0) == Range(1) by {
      MapFilterSnoc([], Art(), CanvasOnPage(0), CanvasOrder);
    }
    CanvasOrdersStayDense(s, Editor7(), 0, "P", "Art2", 800, 600, None, 1);
  }

  lemma ScenarioDeletesHome()
    ensures var s := HomeStore().(canvases := [Art(), Art2()], nextId := 3);
      OnDeletePage(s, Editor7(), "P", 0)
         == Reply(s.(pages := [], canvases := []), Broadcast("P", PageDeleted(0)))
  {
    var s := HomeStore().(canvases := [Art(), Art2()], nextId := 3);
    assert FirstMatchAt(s.projects["P"].collaborators, Some(7), 1);
    var t := OnDeletePage(s, Editor7(), "P", 0).store;
    SubseqMembers(t.pages, s.pages);
    SubseqMembers(t.canvases, s.canvases);
  }

  /** An editor creates canvases "Art" and "Art2" on page "Home" and then
      deletes "Home": the canvases get orders 0 and 1, and the deletion
      leaves neither the page nor its canvases behind. */
  lemma HomePageScenario()
    ensures
      var r1 := OnCreateCanvas(HomeStore(), Editor7(), 0, "P", "Art", 800, 600, None);
      var r2 := OnCreateCanvas(r1.store, Editor7(), 0, "P", "Art2", 800, 600, None);
      var r3 := OnDeletePage(r2.store, Editor7(), "P", 0);
      && r1.outcome.Broadcast? && r1.outcome.event.canvas.order == 0 && r1.outcome.event.canvas.unit == Px
      && r2.outcome.Broadcast? && r2.outcome.event.canvas.order == 1
      && r3.outcome == Broadcast("P", PageDeleted(0))
      && r3.store.pages == [] && r3.store.canvases == []
  {
    ScenarioCreatesArt();
    ScenarioCreatesArt2();
    ScenarioDeletesHome();
  }
}

=== FILE: numbers.dfy ===
/** JavaScript's `Number(x)` as the server and the membership mirror apply
    it to user ids, and the decimal rendering of an id used in cache keys. */
module Numbers {
  import opened Basics

  /** A JavaScript value handed to `Number(...)`: a JWT claim or a Kafka
      payload field, which may arrive as a number or as a string. */
  datatype JsValue = Num(n: int) | Str(s: string)

  predicate IsDigit(c: char)
  {
    '0' <= c <= '9'
  }

  predicate AllDigits(s: string)
  {
    forall i :: 0 <= i < |s| ==> IsDigit(s[i])
  }

  function DigitChar(d: nat): (c: char)
    requires d < 10
    ensures IsDigit(c)
  {
    ('0' as int + d) as char
  }

  /** The natural number spelled by a string of decimal digits, most
      significant digit first. */
  function DigitsValue(s: string): nat
    requires AllDigits(s)
  {
    if |s| == 0 then 0
    else 10 * DigitsValue(s[..|s| - 1]) + (s[|s| - 1] as int - '0' as int)
  }

  /** Base-10 spelling of `n` with no leading zeros. */
  function Decimal(n: nat): (s: string)
    ensures 0 < |s| && AllDigits(s)
    ensures |s| > 1 ==> s[0] != '0'
  {
    if n < 10 then [DigitChar(n)]
    else Decimal(n / 10) + [DigitChar(n % 10)]
  }

  /** The decimal spelling of an integer, with a leading '-' when negative
      (what `String(n)` produces for an integral number). */
  function Show(n: int): string
  {
    if n < 0 then "-" + Decimal(-n) else Decimal(n)
  }

  /** `Number(v)`; `None` stands for `NaN`. A string converts when it is empty
      (to 0) or is an optional sign followed by decimal digits. */
  function ToNumber(v: JsValue): (r: Option<int>)
    ensures v.Num? ==> r == Some(v.n)
    ensures v.Str? && AllDigits(v.s) ==> r.Some? && r.value >= 0
    ensures v.Str? && r.Some? ==> forall i :: 1 <= i < |v.s| ==> IsDigit(v.s[i])
    ensures v.Str? && r.Some? && |v.s| > 0 ==> IsDigit(v.s[0]) || v.s[0] == '-' || v.s[0] == '+'
    ensures v.Str? && r.Some? && r.value < 0 ==> |v.s| > 1 && v.s[0] == '-'
    ensures v.Str? && r.Some? && |v.s| > 0 && (v.s[0] == '-' || v.s[0] == '+') ==> |v.s| > 1
    ensures v.Str? && AllDigits(v.s) ==> r == Some(DigitsValue(v.s))
    ensures v.Str? && |v.s| > 1 && v.s[0] == '-' && AllDigits(v.s[1..]) ==> r == Some(-(DigitsValue(v.s[1..]) as int))
    ensures v.Str? && |v.s| > 1 && v.s[0] == '+' && AllDigits(v.s[1..]) ==> r == Some(DigitsValue(v.s[1..]))
  {
    match v
    case Num(n) => Some(n)
    case Str(s) =>
      if |s| == 0 then Some(0)
      else if AllDigits(s) then Some(DigitsValue(s))
      else if |s| > 1 && s[0] == '-' && AllDigits(s[1..]) then Some(-(DigitsValue(s[1..]) as int))
      else if |s| > 1 && s[0] == '+' && AllDigits(s[1..]) then Some(DigitsValue(s[1..]))
      else None
  }

  /** Reading back the decimal spelling of `n` gives `n`. */
  lemma {:induction false} DecimalValue(n: nat)
    ensures DigitsValue(Decimal(n)) == n
  {
    var s := Decimal(n);
    if n >= 10 {
      DecimalValue(n / 10);
      assert s[..|s| - 1] == Decimal(n / 10);
    }
  }

  /** `Number(String(n)) === n`: a numeric id survives a round trip through
      its string form, for either sign. */
  lemma ToNumberShow(n: int)
    ensures ToNumber(Str(Show(n))) == Some(n)
  {
    var s := Show(n);
    if n < 0 {
      DecimalValue(-n);
      assert s[1..] == Decimal(-n);
      assert !IsDigit(s[0]);
    } else {
      DecimalValue(n);
    }
  }

  /** Distinct naturals have distinct decimal spellings. */
  lemma DecimalInjective(a: nat, b: nat)
    ensures Decimal(a) == Decimal(b) ==> a == b
  {
    DecimalValue(a);
    DecimalValue(b);
  }

  /** A leading zero does not change the value a digit string spells. */
  lemma {:induction false} LeadingZeroValue(s: string)
    requires AllDigits(s)
    ensures AllDigits("0" + s) && DigitsValue("0" + s) == DigitsValue(s)
  {
    var z := "0" + s;
    assert AllDigits(z) by {
      forall i | 0 <= i < |z| ensures IsDigit(z[i]) {
        if i > 0 { assert z[i] == s[i - 1]; }
      }
    }
    if |s| > 0 {
      LeadingZeroValue(s[..|s| - 1]);
      assert z[..|z| - 1] == "0" + s[..|s| - 1];
      assert z[|z| - 1] == s[|s| - 1];
    }
  }

  /** `Number("0" + s) === Number(s)` for a digit string: leading zeros
      are ignored, so `"007"` converts to 7 and `""` and `"0"` both to 0. */
  lemma ToNumberLeadingZero(s: string)
    requires AllDigits(s)
    ensures ToNumber(Str("0" + s)) == ToNumber(Str(s))
  {
    LeadingZeroValue(s);
  }

  /** A sign in front of a non-empty digit string: `+` keeps the value the
      digits spell and `-` negates it. */
  lemma ToNumberSigned(s: string)
    requires 0 < |s| && AllDigits(s)
    ensures ToNumber(Str("+" + s)) == ToNumber(Str(s))
    ensures ToNumber(Str("-" + s)) == Some(-ToNumber(Str(s)).value)
  {
    assert ("+" + s)[1..] == s;
    assert ("-" + s)[1..] == s;
  }

  /** A string holding a character that is neither a digit nor a leading
      sign converts to `NaN`. */
  lemma ToNumberRejectsNonDigit(s: string, i: nat)
    requires 0 < i < |s| && !IsDigit(s[i])
    ensures ToNumber(Str(s)) == None
  {
    assert s[1..][i - 1] == s[i];
  }
}

=== FILE: permission.dfy ===
/** The role lookup every handler repeats: the first collaborator of the
    project whose `userId === Number(socket.data.user.id)`, and the
    owner/editor test the mutating handlers put in front of every write. */
module Permission {
  import opened Basics
  import opened Seqs
  import opened Numbers
  import opened Schema
  import opened Auth

  /** Strict equality of the stored number with `Number(session id)`;
      `NaN` equals nothing. */
  predicate IsUser(c: Collaborator, uid: Option<int>)
  {
    uid == Some(c.userId)
  }

  /** Position `i` holds the first entry matching `uid`. */
  predicate FirstMatchAt(cs: seq<Collaborator>, uid: Option<int>, i: int)
  {
    0 <= i < |cs| && IsUser(cs[i], uid) && forall j :: 0 <= j < i ==> !IsUser(cs[j], uid)
  }

  /** `collaborators.find(c => c.userId === uid)`. */
  function FindCollaborator(cs: seq<Collaborator>, uid: Option<int>): (r: Option<Collaborator>)
    ensures r.None? <==> forall i :: 0 <= i < |cs| ==> !IsUser(cs[i], uid)
    ensures r.Some? ==> exists i :: FirstMatchAt(cs, uid, i) && cs[i] == r.value
  {
    match FirstWhere(cs, (c: Collaborator) => IsUser(c, uid))
    case None => None
    case Some(i) => Some(cs[i])
  }

  /** `project?.collaborators.find(...)?.role`: `None` when the project is
      missing or the user is not listed. */
  function RoleIn(projects: map<string, Project>, projectId: string, user: User): (r: Option<Role>)
    ensures projectId !in projects ==> r.None?
    ensures projectId in projects ==>
      var cs := projects[projectId].collaborators;
      (r.None? <==> forall i :: 0 <= i < |cs| ==> !IsUser(cs[i], ToNumber(user.id)))
      && (r.Some? ==> exists i :: FirstMatchAt(cs, ToNumber(user.id), i) && cs[i].role == r.value)
  {
    if projectId !in projects then None
    else match FindCollaborator(projects[projectId].collaborators, ToNumber(user.id))
      case None => None
      case Some(c) => Some(c.role)
  }

  /** The guard of every mutating handler:
      `userRole === "owner" || userRole === "editor"`. */
  predicate MayEdit(projects: map<string, Project>, projectId: string, user: User)
    ensures MayEdit(projects, projectId, user) <==>
      && projectId in projects
      && exists i :: FirstMatchAt(projects[projectId].collaborators, ToNumber(user.id), i)
           && (projects[projectId].collaborators[i].role == Owner || projects[projectId].collaborators[i].role == Editor)
  {
    var role := RoleIn(projects, projectId, user);
    role == Some(Owner) || role == Some(Editor)
  }

  /** The join test: the user is listed, under any role. */
  predicate MayJoin(projects: map<string, Project>, projectId: string, user: User)
    ensures MayJoin(projects, projectId, user) <==>
      && projectId in projects
      && exists i :: 0 <= i < |projects[projectId].collaborators|
           && IsUser(projects[projectId].collaborators[i], ToNumber(user.id))
  {
    RoleIn(projects, projectId, user).Some?
  }

  /** A session whose id is not a number (`NaN`) matches no collaborator,
      so it can neither join nor edit any project. */
  lemma NaNUserHasNoRole(projects: map<string, Project>, projectId: string, user: User)
    requires ToNumber(user.id).None?
    ensures !MayJoin(projects, projectId, user) && !MayEdit(projects, projectId, user)
  {
    if projectId in projects {
      var cs := projects[projectId].collaborators;
      assert forall i :: 0 <= i < |cs| ==> !IsUser(cs[i], ToNumber(user.id));
    }
  }

  /** Editing rights imply joining rights; a viewer (or any other listed
      role) may join without being able to edit. */
  lemma EditImpliesJoin(projects: map<string, Project>, projectId: string, user: User)
    ensures MayEdit(projects, projectId, user) ==> MayJoin(projects, projectId, user)
    ensures RoleIn(projects, projectId, user) == Some(Viewer) ==>
      MayJoin(projects, projectId, user) && !MayEdit(projects, projectId, user)
  {
  }
}

=== FILE: persistence.dfy ===
/** Debounced persistence of layer documents. Each call of
    `debouncedSaveToMongo` asks for a save of its layer; one lodash-style
    debouncer per layer (kept in an insertion-ordered map that is never
    pruned) fires the save 5000 ms after the latest request, and only then.
    A save reads the layer's snapshot from the cache under
    `"yjs-doc:" + layerId` and writes it to the layer's `data`; a missing
    snapshot writes nothing and a failing write is caught. Time is a
    logical clock passed in by the caller, and the cache contents and the
    set of layers whose write fails at that moment form the environment of
    a firing. */
module Persistence {
  import opened Basics
  import opened Seqs
  import opened Numbers
  import opened Schema

  const QuietWindow: nat := 5000
  const KeyPrefix: string := "yjs-doc:"

  /** The cache key of a layer's document snapshot. */
  function CacheKey(layerId: Id): (k: string)
    ensures |KeyPrefix| < |k| && k[..|KeyPrefix|] == KeyPrefix
  {
    KeyPrefix + Decimal(layerId)
  }

  /** Distinct layers never share a cache key. */
  lemma CacheKeyInjective(a: Id, b: Id)
    ensures CacheKey(a) == CacheKey(b) <==> a == b
  {
    if CacheKey(a) == CacheKey(b) {
      assert Decimal(a) == CacheKey(a)[|KeyPrefix|..];
      assert Decimal(b) == CacheKey(b)[|KeyPrefix|..];
      DecimalInjective(a, b);
    }
  }

  /** What a firing save sees: the cache, and the layers whose durable
      write (or cache read) throws. */
  datatype Env = Env(cache: map<string, seq<Byte>>, failing: set<Id>)

  /** One durable write of a snapshot to a layer's `data`. */
  datatype Write = Write(layerId: Id, bytes: seq<Byte>)

  function WriteFor(layerId: Id): Write -> bool
  {
    (w: Write) => w.layerId == layerId
  }

  /** A save of this layer reaches the durable store. */
  predicate Persists(env: Env, layerId: Id)
  {
    CacheKey(layerId) in env.cache && layerId !in env.failing
  }

  /** The layer as the save leaves it. */
  function Saved(l: Layer, env: Env, fired: bool): Layer
  {
    if fired && Persists(env, l.id) then l.(data := Buffer(env.cache[CacheKey(l.id)])) else l
  }

  function IsLayer(layerId: Id): Layer -> bool
  {
    (l: Layer) => l.id == layerId
  }

  function StoreBytes(bytes: seq<Byte>): Layer -> Layer
  {
    (l: Layer) => l.(data := Buffer(bytes))
  }

  datatype SaveResult = SaveResult(layers: seq<Layer>, writes: seq<Write>)

  /** `saveToMongo`: read the snapshot at fire time; with none, or when
      the write throws, nothing is written and nothing propagates. */
  function Save(layers: seq<Layer>, env: Env, layerId: Id): (r: SaveResult)
    ensures r.writes == if Persists(env, layerId) then [Write(layerId, env.cache[CacheKey(layerId)])] else []
    ensures |r.layers| == |layers|
    ensures forall i :: 0 <= i < |layers| ==> r.layers[i] == Saved(layers[i], env, layers[i].id == layerId)
  {
    if CacheKey(layerId) !in env.cache then SaveResult(layers, [])
    else if layerId in env.failing then SaveResult(layers, [])
    else
      var bytes := env.cache[CacheKey(layerId)];
      SaveResult(UpdateWhere(layers, IsLayer(layerId), StoreBytes(bytes)), [Write(layerId, bytes)])
  }

  /** A save writes only its own layer. */
  lemma SaveWritesFor(layers: seq<Layer>, env: Env, layerId: Id, x: Id)
    ensures Filter(Save(layers, env, layerId).writes, WriteFor(x)) ==
      if layerId == x && Persists(env, x) then [Write(x, env.cache[CacheKey(x)])] else []
  {
    var w := Save(layers, env, layerId).writes;
    if Persists(env, layerId) {
      FilterSnoc([], w[0], WriteFor(x));
      assert [] + [w[0]] == w;
    }
  }

  // ---------------------------------------------------------------- savers

  /** A layer's debounced saver; `due` is the deadline of its pending call,
      `None` once it has fired (or been flushed). */
  datatype Saver = Saver(layerId: Id, due: Option<nat>)

  function SaverKey(s: Saver): int { s.layerId }

  function IsSaverOf(layerId: Id): Saver -> bool
  {
    (s: Saver) => s.layerId == layerId
  }

  predicate OneSaverPerLayer(savers: seq<Saver>)
  {
    UniqueKeys(savers, SaverKey)
  }

  predicate HasSaver(savers: seq<Saver>, layerId: Id)
  {
    exists i :: 0 <= i < |savers| && savers[i].layerId == layerId
  }

  /** The deadline of the layer's pending save, if any. */
  function DueOf(savers: seq<Saver>, layerId: Id): Option<nat>
  {
    match FirstWhere(savers, IsSaverOf(layerId))
    case None => None
    case Some(i) => savers[i].due
  }

  /** With one saver per layer, that saver's deadline is the layer's. */
  lemma DueOfUnique(savers: seq<Saver>, layerId: Id, j: int)
    requires OneSaverPerLayer(savers) && 0 <= j < |savers| && savers[j].layerId == layerId
    ensures DueOf(savers, layerId) == savers[j].due
  {
    var i := FirstWhere(savers, IsSaverOf(layerId)).value;
    assert IsSaverOf(layerId)(savers[j]);
    assert SaverKey(savers[i]) == SaverKey(savers[j]);
  }

  /** `debouncedSaveToMongo`: reuse the layer's saver or append a new one,
      and (re)arm it for `now + 5000`; nothing is written now. */
  function Call(savers: seq<Saver>, layerId: Id, now: nat): (r: seq<Saver>)
    ensures DueOf(r, layerId) == Some(now + QuietWindow)
    ensures forall other :: other != layerId ==> DueOf(r, other) == DueOf(savers, other)
    ensures |r| == if HasSaver(savers, layerId) then |savers| else |savers| + 1
    ensures forall i :: 0 <= i < |savers| ==> r[i].layerId == savers[i].layerId
    ensures OneSaverPerLayer(savers) ==> OneSaverPerLayer(r)
  {
    var armed := Saver(layerId, Some(now + QuietWindow));
    match FirstWhere(savers, IsSaverOf(layerId))
    case None =>
      CallAppends(savers, armed);
      savers + [armed]
    case Some(i) =>
      CallRearms(savers, i, armed);
      savers[i := armed]
  }

  lemma CallAppends(savers: seq<Saver>, armed: Saver)
    requires FirstWhere(savers, IsSaverOf(armed.layerId)).None?
    ensures DueOf(savers + [armed], armed.layerId) == armed.due
    ensures forall other :: other != armed.layerId ==> DueOf(savers + [armed], other) == DueOf(savers, other)
    ensures !HasSaver(savers, armed.layerId)
    ensures OneSaverPerLayer(savers) ==> OneSaverPerLayer(savers + [armed])
  {
    var r := savers + [armed];
    FirstWhereSnoc(savers, armed, IsSaverOf(armed.layerId));
    forall other | other != armed.layerId
      ensures DueOf(r, other) == DueOf(savers, other)
    {
      FirstWhereSnoc(savers, armed, IsSaverOf(other));
    }
    assert forall i :: 0 <= i < |savers| ==> !IsSaverOf(armed.layerId)(savers[i]);
    if OneSaverPerLayer(savers) {
      forall i, j | 0 <= i < j < |r| ensures SaverKey(r[i]) != SaverKey(r[j]) {
        assert r[i] == savers[i];
        if j < |savers| {
          assert r[j] == savers[j];
        }
      }
    }
  }

  lemma CallRearms(savers: seq<Saver>, i: nat, armed: Saver)
    requires FirstWhere(savers, IsSaverOf(armed.layerId)) == Some(i)
    ensures DueOf(savers[i := armed], armed.layerId) == armed.due
    ensures forall other :: other != armed.layerId ==> DueOf(savers[i := armed], other) == DueOf(savers, other)
    ensures HasSaver(savers, armed.layerId)
    ensures OneSaverPerLayer(savers) ==> OneSaverPerLayer(savers[i := armed])
  {
    var r := savers[i := armed];
    forall other ensures FirstWhere(r, IsSaverOf(other)) == FirstWhere(savers, IsSaverOf(other)) {
      FirstWhereAgrees(savers, r, IsSaverOf(other));
    }
  }

  // ---------------------------------------------------------------- firing

  /** The saver fires at this firing: it has a pending call, and either the
      whole map is being flushed (`limit == None`) or its deadline has come. */
  predicate Ready(s: Saver, limit: Option<nat>)
  {
    s.due.Some? && (limit.None? || s.due.value <= limit.value)
  }

  /** The layers some saver of which fires. */
  function ReadyIds(savers: seq<Saver>, limit: Option<nat>): (r: set<Id>)
    ensures forall id :: id in r <==>
      exists j :: 0 <= j < |savers| && savers[j].layerId == id && Ready(savers[j], limit)
    decreases |savers|
  {
    if |savers| == 0 then {}
    else
      var rest := ReadyIds(savers[1..], limit);
      assert forall j :: 0 < j < |savers| ==> savers[j] == savers[1..][j - 1];
      (if Ready(savers[0], limit) then {savers[0].layerId} else {}) + rest
  }

  datatype Fired = Fired(savers: seq<Saver>, layers: seq<Layer>, writes: seq<Write>)

  /** Fire every ready saver in map order: `tick(now)` with
      `limit == Some(now)`, and `flushAllPendingSaves` with `None`. A fired
      saver has nothing pending any more, whether its write went through
      or not. */
  function Fire(savers: seq<Saver>, layers: seq<Layer>, env: Env, limit: Option<nat>): (r: Fired)
    ensures |r.savers| == |savers|
    ensures forall i :: 0 <= i < |savers| ==>
      r.savers[i] == if Ready(savers[i], limit) then savers[i].(due := None) else savers[i]
    ensures |r.layers| == |layers|
    ensures forall i :: 0 <= i < |layers| ==>
      r.layers[i] == Saved(layers[i], env, layers[i].id in ReadyIds(savers, limit))
    decreases |savers|
  {
    if |savers| == 0 then Fired([], layers, [])
    else
      var s := savers[0];
      var saved := if Ready(s, limit) then Save(layers, env, s.layerId) else SaveResult(layers, []);
      var rest := Fire(savers[1..], saved.layers, env, limit);
      Fired([if Ready(s, limit) then s.(due := None) else s] + rest.savers, rest.layers, saved.writes + rest.writes)
  }

  lemma SameLayersOneSaver(a: seq<Saver>, b: seq<Saver>)
    requires |a| == |b| && forall i :: 0 <= i < |a| ==> b[i].layerId == a[i].layerId
    ensures OneSaverPerLayer(a) ==> OneSaverPerLayer(b)
  {
  }

  /** Splitting off the first saver: the layer is ready either there or
      further on, and not in both places. */
  lemma ReadyIdsCons(savers: seq<Saver>, limit: Option<nat>, x: Id)
    requires OneSaverPerLayer(savers) && |savers| > 0
    ensures OneSaverPerLayer(savers[1..])
    ensures var here := savers[0].layerId == x && Ready(savers[0], limit);
      && (x in ReadyIds(savers, limit) <==> here || x in ReadyIds(savers[1..], limit))
      && (here ==> x !in ReadyIds(savers[1..], limit))
  {
    var tail := savers[1..];
    forall i, j | 0 <= i < j < |tail| ensures SaverKey(tail[i]) != SaverKey(tail[j]) {
      assert tail[i] == savers[i + 1] && tail[j] == savers[j + 1];
    }
    assert ReadyIds(savers, limit) ==
      (if Ready(savers[0], limit) then {savers[0].layerId} else {}) + ReadyIds(tail, limit);
    if savers[0].layerId == x {
      forall j | 0 <= j < |tail| ensures tail[j].layerId != x {
        assert tail[j] == savers[j + 1];
        assert SaverKey(savers[0]) != SaverKey(savers[j + 1]);
      }
    }
  }

  /** With one saver per layer, a firing writes each layer at most once,
      and exactly once, with the snapshot cached at that moment, when its
      saver fires and the save goes through. */
  lemma {:induction false} FireWritesEachLayerOnce(savers: seq<Saver>, layers: seq<Layer>, env: Env, limit: Option<nat>, x: Id)
    requires OneSaverPerLayer(savers)
    ensures Filter(Fire(savers, layers, env, limit).writes, WriteFor(x)) ==
      if x in ReadyIds(savers, limit) && Persists(env, x) then [Write(x, env.cache[CacheKey(x)])] else []
    decreases |savers|
  {
    if |savers| > 0 {
      var s := savers[0];
      var tail := savers[1..];
      var saved := if Ready(s, limit) then Save(layers, env, s.layerId) else SaveResult(layers, []);
      var rest := Fire(tail, saved.layers, env, limit);
      assert Fire(savers, layers, env, limit).writes == saved.writes + rest.writes;
      var firedHere := s.layerId == x && Ready(s, limit);
      assert && OneSaverPerLayer(tail)
             && (x in ReadyIds(savers, limit) <==> firedHere || x in ReadyIds(tail, limit))
             && (firedHere ==> x !in ReadyIds(tail, limit)) by {
        ReadyIdsCons(savers, limit, x);
      }
      var mine := if Persists(env, x) then [Write(x, env.cache[CacheKey(x)])] else [];
      assert Filter(saved.writes, WriteFor(x)) == if firedHere then mine else [] by {
        if Ready(s, limit) {
          SaveWritesFor(layers, env, s.layerId, x);
        }
      }
      assert Filter(rest.writes, WriteFor(x)) == if x in ReadyIds(tail, limit) then mine else [] by {
        FireWritesEachLayerOnce(tail, saved.layers, env, limit, x);
      }
      FilterAppend(saved.writes, rest.writes, WriteFor(x));
    }
  }

  /** A firing in which no saver is ready writes nothing and changes
      nothing. */
  lemma {:induction false} FireQuiet(savers: seq<Saver>, layers: seq<Layer>, env: Env, limit: Option<nat>)
    requires forall i :: 0 <= i < |savers| ==> !Ready(savers[i], limit)
    ensures Fire(savers, layers, env, limit) == Fired(savers, layers, [])
    decreases |savers|
  {
    if |savers| > 0 {
      assert !Ready(savers[0], limit);
      FireQuiet(savers[1..], layers, env, limit);
      assert [savers[0]] + savers[1..] == savers;
    }
  }

  /** Flushing twice in a row: the second flush finds nothing pending and
      writes nothing, so `flushAllPendingSaves` is idempotent. */
  lemma FlushTwiceWritesNothing(savers: seq<Saver>, layers: seq<Layer>, env1: Env, env2: Env)
    ensures var f := Fire(savers, layers, env1, None);
      Fire(f.savers, f.layers, env2, None) == Fired(f.savers, f.layers, [])
  {
    var f := Fire(savers, layers, env1, None);
    FireQuiet(f.savers, f.layers, env2, None);
  }

  // ---------------------------------------------------------- event stream

  datatype Event =
    | CallAt(layerId: Id, time: nat)
    | TickAt(time: nat, env: Env)
    | FlushAll(env: Env)

  /** The debouncer map, the layer collection, and the log of durable
      writes so far. */
  datatype SaveState = SaveState(savers: seq<Saver>, layers: seq<Layer>, writes: seq<Write>)

  function FireAll(p: SaveState, env: Env, limit: Option<nat>): (q: SaveState)
    ensures |p.writes| <= |q.writes| && q.writes[..|p.writes|] == p.writes
    ensures OneSaverPerLayer(p.savers) ==> OneSaverPerLayer(q.savers)
  {
    var f := Fire(p.savers, p.layers, env, limit);
    SameLayersOneSaver(p.savers, f.savers);
    SaveState(f.savers, f.layers, p.writes + f.writes)
  }

  /** One event: a save request arms a saver and writes nothing; a clock
      tick or a flush fires savers and only ever appends to the log. */
  function Step(p: SaveState, e: Event): (q: SaveState)
    ensures e.CallAt? ==> q.layers == p.layers && q.writes == p.writes
    ensures |p.writes| <= |q.writes| && q.writes[..|p.writes|] == p.writes
    ensures OneSaverPerLayer(p.savers) ==> OneSaverPerLayer(q.savers)
  {
    match e
    case CallAt(id, now) => p.(savers := Call(p.savers, id, now))
    case TickAt(now, env) => FireAll(p, env, Some(now))
    case FlushAll(env) => FireAll(p, env, None)
  }

  function Run(p: SaveState, events: seq<Event>): SaveState
    decreases |events|
  {
    if |events| == 0 then p else Run(Step(p, events[0]), events[1..])
  }

  lemma {:induction false} RunAppend(p: SaveState, a: seq<Event>, b: seq<Event>)
    ensures Run(p, a + b) == Run(Run(p, a), b)
    decreases |a|
  {
    if |a| == 0 {
      assert a + b == b;
    } else {
      assert (a + b)[0] == a[0] && (a + b)[1..] == a[1..] + b;
      RunAppend(Step(p, a[0]), a[1..], b);
    }
  }

  // ----------------------------------------------------------- coalescing

  /** A tick before the layer's deadline neither writes the layer nor
      disturbs its pending save. */
  lemma TickBeforeDeadline(p: SaveState, x: Id, now: nat, env: Env)
    requires OneSaverPerLayer(p.savers)
    requires DueOf(p.savers, x).None? || now < DueOf(p.savers, x).value
    ensures var q := Step(p, TickAt(now, env));
      && DueOf(q.savers, x) == DueOf(p.savers, x)
      && Filter(q.writes, WriteFor(x)) == Filter(p.writes, WriteFor(x))
  {
    var f := Fire(p.savers, p.layers, env, Some(now));
    assert x !in ReadyIds(p.savers, Some(now)) by {
      forall j | 0 <= j < |p.savers| && p.savers[j].layerId == x ensures !Ready(p.savers[j], Some(now)) {
        DueOfUnique(p.savers, x, j);
      }
    }
    FirstWhereAgrees(p.savers, f.savers, IsSaverOf(x));
    FireWritesEachLayerOnce(p.savers, p.layers, env, Some(now), x);
    FilterAppend(p.writes, f.writes, WriteFor(x));
    assert Filter(p.writes, WriteFor(x)) + [] == Filter(p.writes, WriteFor(x));
  }

  /** A tick at or after the deadline writes the layer once, with the
      snapshot cached at that moment, unless the cache has none or the
      write fails; either way the saver is left with nothing pending, so a
      failed save is not retried. */
  lemma TickAtDeadline(p: SaveState, x: Id, now: nat, env: Env)
    requires OneSaverPerLayer(p.savers)
    requires DueOf(p.savers, x).Some? && DueOf(p.savers, x).value <= now
    ensures var q := Step(p, TickAt(now, env));
      && DueOf(q.savers, x).None?
      && Filter(q.writes, WriteFor(x)) == Filter(p.writes, WriteFor(x)) +
           (if Persists(env, x) then [Write(x, env.cache[CacheKey(x)])] else [])
      && forall i :: 0 <= i < |q.layers| && q.layers[i].id == x ==>
           q.layers[i] == Saved(p.layers[i], env, true)
  {
    var f := Fire(p.savers, p.layers, env, Some(now));
    var i := FirstWhere(p.savers, IsSaverOf(x)).value;
    assert x in ReadyIds(p.savers, Some(now)) by {
      assert p.savers[i].layerId == x && Ready(p.savers[i], Some(now));
    }
    FirstWhereAgrees(p.savers, f.savers, IsSaverOf(x));
    FireWritesEachLayerOnce(p.savers, p.layers, env, Some(now), x);
    FilterAppend(p.writes, f.writes, WriteFor(x));
  }

  /** A save request at a given time. */
  datatype Edit = Edit(time: nat, env: Env)

  /** An edit to layer `x`: the clock first advances to its time (firing
      whatever is due), then the save is requested. */
  function EditEvents(x: Id, e: Edit): seq<Event>
  {
    [TickAt(e.time, e.env), CallAt(x, e.time)]
  }

  function BurstEvents(x: Id, edits: seq<Edit>): seq<Event>
    decreases |edits|
  {
    if |edits| == 0 then [] else EditEvents(x, edits[0]) + BurstEvents(x, edits[1..])
  }

  function Edited(p: SaveState, x: Id, e: Edit): SaveState
  {
    Step(Step(p, TickAt(e.time, e.env)), CallAt(x, e.time))
  }

  function Burst(p: SaveState, x: Id, edits: seq<Edit>): SaveState
    decreases |edits|
  {
    if |edits| == 0 then p else Burst(Edited(p, x, edits[0]), x, edits[1..])
  }

  /** Running a burst's events is applying its edits one by one. */
  lemma {:induction false} RunBurst(p: SaveState, x: Id, edits: seq<Edit>)
    ensures Run(p, BurstEvents(x, edits)) == Burst(p, x, edits)
    decreases |edits|
  {
    if |edits| > 0 {
      var e := edits[0];
      var head := EditEvents(x, e);
      RunAppend(p, head, BurstEvents(x, edits[1..]));
      assert Run(p, head) == Edited(p, x, e) by {
        var p1 := Step(p, TickAt(e.time, e.env));
        assert head[0] == TickAt(e.time, e.env) && head[1..] == [CallAt(x, e.time)];
        assert Run(p, head) == Run(p1, head[1..]);
        assert Run(p1, head[1..]) == Run(Step(p1, CallAt(x, e.time)), []);
      }
      RunBurst(Edited(p, x, e), x, edits[1..]);
    }
  }

  /** Each edit comes within the quiet window of the previous one. */
  predicate Rapid(edits: seq<Edit>)
  {
    forall i :: 0 < i < |edits| ==> edits[i].time < edits[i - 1].time + QuietWindow
  }

  /** From `p` to `q` the layer `x` has not been written, and its save is
      pending with deadline `due`. */
  predicate Postponed(p: SaveState, q: SaveState, x: Id, due: nat)
  {
    && OneSaverPerLayer(q.savers)
    && DueOf(q.savers, x) == Some(due)
    && Filter(q.writes, WriteFor(x)) == Filter(p.writes, WriteFor(x))
  }

  lemma PostponedChain(p: SaveState, p2: SaveState, q: SaveState, x: Id, d1: nat, d2: nat)
    requires Postponed(p, p2, x, d1) && Postponed(p2, q, x, d2)
    ensures Postponed(p, q, x, d2)
  {
  }

  /** An edit before the layer's deadline postpones its save to one quiet
      window after the edit, without writing it. */
  lemma EditPostpones(p: SaveState, x: Id, e: Edit)
    requires OneSaverPerLayer(p.savers)
    requires DueOf(p.savers, x).None? || e.time < DueOf(p.savers, x).value
    ensures Postponed(p, Edited(p, x, e), x, e.time + QuietWindow)
  {
    var p1 := Step(p, TickAt(e.time, e.env));
    var p2 := Step(p1, CallAt(x, e.time));
    assert OneSaverPerLayer(p2.savers) && Filter(p2.writes, WriteFor(x)) == Filter(p.writes, WriteFor(x)) by {
      TickBeforeDeadline(p, x, e.time, e.env);
    }
    assert DueOf(p2.savers, x) == Some(e.time + QuietWindow) by {
      assert p2.savers == Call(p1.savers, x, e.time);
    }
  }

  /** The deadline one quiet window after the last edit of a burst. */
  function Deadline(edits: seq<Edit>): nat
    requires |edits| > 0
  {
    edits[|edits| - 1].time + QuietWindow
  }

  lemma RapidTail(edits: seq<Edit>)
    requires |edits| > 1 && Rapid(edits)
    ensures Rapid(edits[1..]) && edits[1..][0].time < edits[0].time + QuietWindow
  {
    var more := edits[1..];
    forall i | 0 < i < |more| ensures more[i].time < more[i - 1].time + QuietWindow {
      assert more[i] == edits[i + 1] && more[i - 1] == edits[i];
    }
  }

  lemma DeadlineOfTail(edits: seq<Edit>)
    requires |edits| > 1
    ensures Deadline(edits[1..]) == Deadline(edits)
  {
  }

  /** During a rapid burst the layer is never written, and afterwards its
      save is due one quiet window after the last edit. */
  lemma {:induction false} BurstDefersSave(p: SaveState, x: Id, edits: seq<Edit>)
    requires OneSaverPerLayer(p.savers) && |edits| > 0 && Rapid(edits)
    requires DueOf(p.savers, x).None? || edits[0].time < DueOf(p.savers, x).value
    ensures Postponed(p, Burst(p, x, edits), x, Deadline(edits))
    decreases |edits|
  {
    var p2 := Edited(p, x, edits[0]);
    assert Postponed(p, p2, x, edits[0].time + QuietWindow) by {
      EditPostpones(p, x, edits[0]);
    }
    if |edits| > 1 {
      var more := edits[1..];
      assert Burst(p, x, edits) == Burst(p2, x, more);
      assert Postponed(p2, Burst(p2, x, more), x, Deadline(edits)) by {
        RapidTail(edits);
        DeadlineOfTail(edits);
        BurstDefersSave(p2, x, more);
      }
      PostponedChain(p, p2, Burst(p2, x, more), x, edits[0].time + QuietWindow, Deadline(edits));
    } else {
      assert Burst(p, x, edits) == p2 by {
        assert edits[1..] == [];
      }
      assert Deadline(edits) == edits[0].time + QuietWindow;
    }
  }

  /** Debounce coalescing: a rapid burst of save requests for one layer,
      followed by the clock reaching one quiet window after the last
      request, adds exactly one write of that layer to the log, carrying
      the snapshot cached when the save fires (none when the cache has no
      snapshot or the write fails), and leaves nothing pending. */
  lemma BurstWritesOnce(p: SaveState, x: Id, edits: seq<Edit>, final: Env)
    requires OneSaverPerLayer(p.savers) && |edits| > 0 && Rapid(edits)
    requires DueOf(p.savers, x).None? || edits[0].time < DueOf(p.savers, x).value
    ensures var q := Run(p, BurstEvents(x, edits) + [TickAt(Deadline(edits), final)]);
      && DueOf(q.savers, x).None?
      && Filter(q.writes, WriteFor(x)) == Filter(p.writes, WriteFor(x)) +
           (if Persists(final, x) then [Write(x, final.cache[CacheKey(x)])] else [])
  {
    var deadline := Deadline(edits);
    var mid := Burst(p, x, edits);
    assert Run(p, BurstEvents(x, edits) + [TickAt(deadline, final)]) == Step(mid, TickAt(deadline, final)) by {
      RunAppend(p, BurstEvents(x, edits), [TickAt(deadline, final)]);
      RunBurst(p, x, edits);
      assert Run(mid, [TickAt(deadline, final)]) == Step(mid, TickAt(deadline, final));
    }
    BurstDefersSave(p, x, edits);
    TickAtDeadline(mid, x, deadline, final);
  }
}

=== FILE: schema.dfy ===
/** The four Mongoose schemas the server reads and writes: projects with
    their collaborator lists, and the page -> canvas -> layer tree. */
module Schema {
  import opened Basics

  /** A MongoDB ObjectId, abstracted to a natural number. */
  type Id = nat

  // ---------------------------------------------------------------- projects

  /** A collaborator role. The schema's enum lists owner, editor and viewer,
      but Mongoose checks enums only when a document is created; a role
      pushed or set by an update is stored as given, so other strings can
      reach the store and are kept as `OtherRole`. */
  datatype Role = Owner | Editor | Viewer | OtherRole(name: string)

  function RoleName(r: Role): string
  {
    match r
    case Owner => "owner"
    case Editor => "editor"
    case Viewer => "viewer"
    case OtherRole(n) => n
  }

  /** The role a stored string denotes. */
  function RoleOf(name: string): (r: Role)
    ensures RoleName(r) == name
    ensures r.OtherRole? <==> name != "owner" && name != "editor" && name != "viewer"
  {
    if name == "owner" then Owner
    else if name == "editor" then Editor
    else if name == "viewer" then Viewer
    else OtherRole(name)
  }

  /** The role lies in the schema's enum. */
  predicate InRoleEnum(r: Role)
  {
    !r.OtherRole?
  }

  /** A `{ userId, role }` entry; `userId` is a required Number. */
  datatype Collaborator = Collaborator(userId: int, role: Role)

  /** `_id` is supplied by the upstream system (not generated); the
      collaborator list is ordered and may repeat a `userId`. */
  datatype Project = Project(id: string, name: string, ownerId: int, collaborators: seq<Collaborator>)

  // ------------------------------------------------------------------- pages

  datatype Page = Page(id: Id, projectId: string, name: string, order: int)

  // ---------------------------------------------------------------- canvases

  datatype SizeUnit = Px | Mm | Cm | In | Pt

  const DefaultUnit: SizeUnit := Px

  function UnitName(u: SizeUnit): string
  {
    match u
    case Px => "px"
    case Mm => "mm"
    case Cm => "cm"
    case In => "in"
    case Pt => "pt"
  }

  /** The enum check Mongoose applies to `unit` on create. */
  function ParseUnit(s: string): (r: Option<SizeUnit>)
    ensures r.Some? ==> UnitName(r.value) == s
    ensures r.None? ==> forall u: SizeUnit :: UnitName(u) != s
  {
    if s == "px" then Some(Px)
    else if s == "mm" then Some(Mm)
    else if s == "cm" then Some(Cm)
    else if s == "in" then Some(In)
    else if s == "pt" then Some(Pt)
    else None
  }

  datatype Canvas = Canvas(
    id: Id, pageId: Id, projectId: string, name: string, order: int,
    width: int, height: int, unit: SizeUnit)

  // ------------------------------------------------------------------ layers

  datatype LayerType = Brush | Text | Shape | Image

  function LayerTypeName(t: LayerType): string
  {
    match t
    case Brush => "brush"
    case Text => "text"
    case Shape => "shape"
    case Image => "image"
  }

  /** The enum check Mongoose applies to `type` on create. */
  function ParseLayerType(s: string): (r: Option<LayerType>)
    ensures r.Some? ==> LayerTypeName(r.value) == s
    ensures r.None? ==> forall t: LayerType :: LayerTypeName(t) != s
  {
    if s == "brush" then Some(Brush)
    else if s == "text" then Some(Text)
    else if s == "shape" then Some(Shape)
    else if s == "image" then Some(Image)
    else None
  }

  datatype BlendMode =
    | Normal | Multiply | Screen | Overlay | SoftLight | HardLight
    | ColorDodge | ColorBurn | Darken | Lighten | Difference | Exclusion

  const DefaultBlendMode: BlendMode := Normal

  function BlendModeName(m: BlendMode): string
  {
    match m
    case Normal => "normal"
    case Multiply => "multiply"
    case Screen => "screen"
    case Overlay => "overlay"
    case SoftLight => "soft-light"
    case HardLight => "hard-light"
    case ColorDodge => "color-dodge"
    case ColorBurn => "color-burn"
    case Darken => "darken"
    case Lighten => "lighten"
    case Difference => "difference"
    case Exclusion => "exclusion"
  }

  /** Distinct modes have distinct names, so the twelve-name enum lists
      exactly the twelve modes. */
  lemma BlendModeNamesDistinct(a: BlendMode, b: BlendMode)
    ensures BlendModeName(a) == BlendModeName(b) ==> a == b
  {
  }

  const MinOpacity: int := 0
  const MaxOpacity: int := 100
  const DefaultOpacity: int := 100

  /** The Mixed `data` field: the schema default `{}`, a binary CRDT
      snapshot, or a falsy JSON value (`null`, `false`, `0`, `""`). */
  datatype LayerData = EmptyObject | Buffer(bytes: seq<Byte>) | Falsy

  /** JavaScript truthiness of the value. */
  predicate Truthy(d: LayerData)
  {
    !d.Falsy?
  }

  datatype Layer = Layer(
    id: Id, canvasId: Id, projectId: string, name: string, order: int,
    layerType: LayerType, blendMode: BlendMode, opacity: int,
    isVisible: bool, isLocked: bool, data: LayerData)

  // -------------------------------------------------------------- validators

  /** Mongoose's `required` validator on a String rejects the empty string. */
  predicate Present(s: string)
  {
    s != ""
  }

  /** What the schema validators demand of a layer document on create. */
  predicate ValidLayer(l: Layer)
  {
    Present(l.projectId) && Present(l.name) && MinOpacity <= l.opacity <= MaxOpacity
  }

  /** A new layer document: the given fields plus the schema defaults. */
  function NewLayer(id: Id, canvasId: Id, projectId: string, name: string, order: int, t: LayerType): (l: Layer)
    ensures l.id == id && l.canvasId == canvasId && l.projectId == projectId
    ensures l.name == name && l.order == order && l.layerType == t
    ensures l.blendMode == Normal && l.opacity == 100 && l.isVisible && !l.isLocked && l.data == EmptyObject
    ensures ValidLayer(l) <==> Present(projectId) && Present(name)
  {
    Layer(id, canvasId, projectId, name, order, t, DefaultBlendMode, DefaultOpacity, true, false, EmptyObject)
  }

  /** A new canvas document; a missing `unit` takes the schema default. */
  function NewCanvas(
    id: Id, pageId: Id, projectId: string, name: string, order: int,
    width: int, height: int, unit: Option<SizeUnit>): (c: Canvas)
    ensures c.id == id && c.pageId == pageId && c.projectId == projectId && c.name == name
    ensures c.order == order && c.width == width && c.height == height
    ensures unit.None? ==> c.unit == Px
    ensures unit.Some? ==> c.unit == unit.value
  {
    Canvas(id, pageId, projectId, name, order, width, height,
           if unit.Some? then unit.value else DefaultUnit)
  }

  // ----------------------------------------------------------------- patches

  /** The value of a patched field: the patch's when present, else the old one. */
  function Pick<T>(patch: Option<T>, current: T): T
  {
    if patch.Some? then patch.value else current
  }

  /** The field after a `$set`: the patched value when the patch carries
      one, the stored value otherwise. */
  predicate Assigned<T(==)>(patch: Option<T>, before: T, after: T)
  {
    if patch.Some? then after == patch.value else after == before
  }

  /** A `$set` of some of a page's fields. */
  datatype PagePatch = PagePatch(projectId: Option<string>, name: Option<string>, order: Option<int>)

  function PatchPage(p: Page, u: PagePatch): (r: Page)
    ensures r.id == p.id
    ensures Assigned(u.projectId, p.projectId, r.projectId) && Assigned(u.name, p.name, r.name)
    ensures Assigned(u.order, p.order, r.order)
    ensures u == PagePatch(None, None, None) ==> r == p
  {
    Page(p.id, Pick(u.projectId, p.projectId), Pick(u.name, p.name), Pick(u.order, p.order))
  }

  /** A `$set` of some of a canvas's fields. */
  datatype CanvasPatch = CanvasPatch(
    pageId: Option<Id>, projectId: Option<string>, name: Option<string>, order: Option<int>,
    width: Option<int>, height: Option<int>, unit: Option<SizeUnit>)

  function PatchCanvas(c: Canvas, u: CanvasPatch): (r: Canvas)
    ensures r.id == c.id
    ensures Assigned(u.pageId, c.pageId, r.pageId) && Assigned(u.projectId, c.projectId, r.projectId)
    ensures Assigned(u.name, c.name, r.name) && Assigned(u.order, c.order, r.order)
    ensures Assigned(u.width, c.width, r.width) && Assigned(u.height, c.height, r.height)
    ensures Assigned(u.unit, c.unit, r.unit)
    ensures u == CanvasPatch(None, None, None, None, None, None, None) ==> r == c
  {
    Canvas(c.id, Pick(u.pageId, c.pageId), Pick(u.projectId, c.projectId), Pick(u.name, c.name),
           Pick(u.order, c.order), Pick(u.width, c.width), Pick(u.height, c.height),
           Pick(u.unit, c.unit))
  }

  /** A `$set` of some of a layer's fields. */
  datatype LayerPatch = LayerPatch(
    canvasId: Option<Id>, projectId: Option<string>, name: Option<string>, order: Option<int>,
    layerType: Option<LayerType>, blendMode: Option<BlendMode>, opacity: Option<int>,
    isVisible: Option<bool>, isLocked: Option<bool>, data: Option<LayerData>)

  function PatchLayer(l: Layer, u: LayerPatch): (r: Layer)
    ensures r.id == l.id
    ensures Assigned(u.canvasId, l.canvasId, r.canvasId) && Assigned(u.projectId, l.projectId, r.projectId)
    ensures Assigned(u.name, l.name, r.name) && Assigned(u.order, l.order, r.order)
    ensures Assigned(u.layerType, l.layerType, r.layerType) && Assigned(u.blendMode, l.blendMode, r.blendMode)
    ensures Assigned(u.opacity, l.opacity, r.opacity) && Assigned(u.isVisible, l.isVisible, r.isVisible)
    ensures Assigned(u.isLocked, l.isLocked, r.isLocked) && Assigned(u.data, l.data, r.data)
    ensures u == LayerPatch(None, None, None, None, None, None, None, None, None, None) ==> r == l
  {
    Layer(l.id, Pick(u.canvasId, l.canvasId), Pick(u.projectId, l.projectId), Pick(u.name, l.name),
          Pick(u.order, l.order), Pick(u.layerType, l.layerType), Pick(u.blendMode, l.blendMode),
          Pick(u.opacity, l.opacity), Pick(u.isVisible, l.isVisible), Pick(u.isLocked, l.isLocked),
          Pick(u.data, l.data))
  }

  /** Applying the same `$set` twice is applying it once. */
  lemma SetIsIdempotent(p: Page, pu: PagePatch, c: Canvas, cu: CanvasPatch, l: Layer, lu: LayerPatch)
    ensures PatchPage(PatchPage(p, pu), pu) == PatchPage(p, pu)
    ensures PatchCanvas(PatchCanvas(c, cu), cu) == PatchCanvas(c, cu)
    ensures PatchLayer(PatchLayer(l, lu), lu) == PatchLayer(l, lu)
  {
  }
}

=== FILE: seqs.dfy ===
/** Sequence helpers used to model MongoDB collections and JavaScript arrays:
    filtering (`find`, `deleteMany`, `$pull`), element-wise update
    (`findByIdAndUpdate`, positional `$set`), first match (`Array.find`,
    `findById`) and ordering (`sort({ order: 1 })`). */
module Seqs {
  import opened Basics

  /** `a` is obtained from `b` by dropping some elements and keeping the
      rest in their original order. */
  predicate IsSubseq<T(==)>(a: seq<T>, b: seq<T>)
    decreases |b|
  {
    if |a| == 0 then true
    else if |b| == 0 then false
    else (a[0] == b[0] && IsSubseq(a[1..], b[1..])) || IsSubseq(a, b[1..])
  }

  lemma {:induction false} SubseqReflexive<T>(s: seq<T>)
    ensures IsSubseq(s, s)
  {
    if |s| > 0 {
      SubseqReflexive(s[1..]);
    }
  }

  /** The elements of `s` that satisfy `keep`, in their original order. */
  function Filter<T(==)>(s: seq<T>, keep: T -> bool): (r: seq<T>)
    ensures |r| <= |s|
    ensures forall i :: 0 <= i < |r| ==> r[i] in s && keep(r[i])
    ensures forall i :: 0 <= i < |s| && keep(s[i]) ==> s[i] in r
    ensures IsSubseq(r, s)
  {
    if |s| == 0 then []
    else if keep(s[0]) then [s[0]] + Filter(s[1..], keep)
    else Filter(s[1..], keep)
  }

  /** Filtering distributes over appending one element at the end. */
  lemma {:induction false} FilterSnoc<T>(s: seq<T>, x: T, keep: T -> bool)
    ensures Filter(s + [x], keep) == Filter(s, keep) + (if keep(x) then [x] else [])
  {
    if |s| == 0 {
      assert s + [x] == [x];
      assert [x][1..] == [];
    } else {
      assert (s + [x])[0] == s[0];
      assert (s + [x])[1..] == s[1..] + [x];
      FilterSnoc(s[1..], x, keep);
    }
  }

  /** `f` applied to every element, positions preserved. */
  function MapSeq<T, U>(s: seq<T>, f: T -> U): (r: seq<U>)
    ensures |r| == |s|
    ensures forall i :: 0 <= i < |s| ==> r[i] == f(s[i])
  {
    seq(|s|, i requires 0 <= i < |s| => f(s[i]))
  }

  /** Mapping the filtered list distributes over appending one element. */
  lemma MapFilterSnoc<T, U>(s: seq<T>, x: T, keep: T -> bool, f: T -> U)
    ensures MapSeq(Filter(s + [x], keep), f) == MapSeq(Filter(s, keep), f) + (if keep(x) then [f(x)] else [])
  {
    FilterSnoc(s, x, keep);
    var a := Filter(s, keep);
    if keep(x) {
      assert MapSeq(a + [x], f) == MapSeq(a, f) + [f(x)];
    } else {
      assert a + [] == a;
    }
  }

  /** Every element that satisfies `hit` is replaced by its image under `f`;
      all other elements stay where they are. */
  function UpdateWhere<T>(s: seq<T>, hit: T -> bool, f: T -> T): (r: seq<T>)
    ensures |r| == |s|
    ensures forall i :: 0 <= i < |s| ==> r[i] == (if hit(s[i]) then f(s[i]) else s[i])
  {
    seq(|s|, i requires 0 <= i < |s| => if hit(s[i]) then f(s[i]) else s[i])
  }

  /** Index of the first element satisfying `hit`, as `Array.prototype.find`
      and MongoDB's positional `$` operator select it. */
  function FirstWhere<T>(s: seq<T>, hit: T -> bool): (r: Option<nat>)
    ensures r.Some? ==> r.value < |s| && hit(s[r.value])
    ensures r.Some? ==> forall j :: 0 <= j < r.value ==> !hit(s[j])
    ensures r.None? ==> forall j :: 0 <= j < |s| ==> !hit(s[j])
  {
    if |s| == 0 then None
    else if hit(s[0]) then Some(0)
    else match FirstWhere(s[1..], hit)
      case None => None
      case Some(k) => Some(k + 1)
  }

  /** Two lists that agree on `hit` position by position have their first
      hit at the same place. */
  lemma FirstWhereAgrees<T>(s: seq<T>, t: seq<T>, hit: T -> bool)
    requires |s| == |t| && forall i :: 0 <= i < |s| ==> hit(s[i]) == hit(t[i])
    ensures FirstWhere(s, hit) == FirstWhere(t, hit)
  {
  }

  /** Appending an element only matters when nothing before it hits. */
  lemma {:induction false} FirstWhereSnoc<T>(s: seq<T>, x: T, hit: T -> bool)
    ensures FirstWhere(s + [x], hit) ==
      if FirstWhere(s, hit).Some? then FirstWhere(s, hit)
      else if hit(x) then Some(|s|) else None
    decreases |s|
  {
    var t := s + [x];
    if |s| == 0 {
      assert t == [x] && t[1..] == [];
    } else {
      assert t[0] == s[0] && t[1..] == s[1..] + [x];
      FirstWhereSnoc(s[1..], x, hit);
    }
  }

  /** Filtering distributes over concatenation. */
  lemma {:induction false} FilterAppend<T>(a: seq<T>, b: seq<T>, keep: T -> bool)
    ensures Filter(a + b, keep) == Filter(a, keep) + Filter(b, keep)
    decreases |a|
  {
    if |a| == 0 {
      assert a + b == b;
    } else {
      assert (a + b)[0] == a[0];
      assert (a + b)[1..] == a[1..] + b;
      FilterAppend(a[1..], b, keep);
    }
  }

  /** A filter keeps every copy of a kept value and no copy of a dropped
      one. */
  lemma {:induction false} FilterCount<T>(s: seq<T>, keep: T -> bool, x: T)
    ensures multiset(Filter(s, keep))[x] == if keep(x) then multiset(s)[x] else 0
  {
    if |s| > 0 {
      assert s == [s[0]] + s[1..];
      FilterCount(s[1..], keep, x);
    }
  }

  /** Nothing survives a filter that no element passes. */
  lemma FilterNone<T>(s: seq<T>, keep: T -> bool)
    requires forall i :: 0 <= i < |s| ==> !keep(s[i])
    ensures Filter(s, keep) == []
  {
  }

  /** No two elements share a key (ObjectIds are unique within a collection). */
  predicate UniqueKeys<T>(s: seq<T>, key: T -> int)
  {
    forall i, j :: 0 <= i < j < |s| ==> key(s[i]) != key(s[j])
  }

  /** Every key is below `bound` (all ids were handed out before `bound`). */
  predicate KeysBelow<T>(s: seq<T>, key: T -> int, bound: int)
  {
    forall i :: 0 <= i < |s| ==> key(s[i]) < bound
  }

  lemma {:induction false} SubseqMembers<T>(a: seq<T>, b: seq<T>)
    requires IsSubseq(a, b)
    ensures forall i :: 0 <= i < |a| ==> a[i] in b
    decreases |b|
  {
    if |a| > 0 {
      if a[0] == b[0] && IsSubseq(a[1..], b[1..]) {
        SubseqMembers(a[1..], b[1..]);
        forall i | 0 <= i < |a| ensures a[i] in b {
          if i > 0 {
            assert a[i] == a[1..][i - 1];
          }
        }
      } else {
        SubseqMembers(a, b[1..]);
      }
    }
  }

  /** Dropping elements keeps keys unique and below the bound. */
  lemma {:induction false} SubseqKeepsKeys<T>(a: seq<T>, b: seq<T>, key: T -> int, bound: int)
    requires IsSubseq(a, b) && UniqueKeys(b, key) && KeysBelow(b, key, bound)
    ensures UniqueKeys(a, key) && KeysBelow(a, key, bound)
    decreases |b|
  {
    SubseqMembers(a, b);
    if |a| > 0 {
      var tail := b[1..];
      assert UniqueKeys(tail, key) by {
        forall i, j | 0 <= i < j < |tail| ensures key(tail[i]) != key(tail[j]) {
          assert tail[i] == b[i + 1] && tail[j] == b[j + 1];
        }
      }
      if a[0] == b[0] && IsSubseq(a[1..], tail) {
        SubseqKeepsKeys(a[1..], tail, key, bound);
        SubseqMembers(a[1..], tail);
        forall i, j | 0 <= i < j < |a| ensures key(a[i]) != key(a[j]) {
          assert a[j] == a[1..][j - 1];
          if i == 0 {
            var k :| 0 <= k < |tail| && tail[k] == a[j];
            assert b[k + 1] == a[j];
          } else {
            assert a[i] == a[1..][i - 1];
          }
        }
      } else {
        SubseqKeepsKeys(a, tail, key, bound);
      }
    }
  }

  /** Appending an element whose key is the bound keeps keys unique and
      below the next bound. */
  lemma AppendFreshKey<T>(s: seq<T>, x: T, key: T -> int, bound: int)
    requires UniqueKeys(s, key) && KeysBelow(s, key, bound) && key(x) == bound
    ensures UniqueKeys(s + [x], key) && KeysBelow(s + [x], key, bound + 1)
  {
    var t := s + [x];
    forall i, j | 0 <= i < j < |t| ensures key(t[i]) != key(t[j]) {
      assert t[i] == s[i];
    }
  }

  /** Replacing elements by ones with the same keys keeps the key properties. */
  lemma SameKeys<T>(s: seq<T>, t: seq<T>, key: T -> int, bound: int)
    requires UniqueKeys(s, key) && KeysBelow(s, key, bound)
    requires |t| == |s| && forall i :: 0 <= i < |s| ==> key(t[i]) == key(s[i])
    ensures UniqueKeys(t, key) && KeysBelow(t, key, bound)
  {
  }

  /** Keys are non-decreasing from left to right. */
  predicate SortedBy<T>(s: seq<T>, key: T -> int)
  {
    forall i, j :: 0 <= i < j < |s| ==> key(s[i]) <= key(s[j])
  }

  /** Insert `x` in front of the first element whose key is not smaller. */
  function InsertByKey<T(==)>(x: T, s: seq<T>, key: T -> int): (r: seq<T>)
    requires SortedBy(s, key)
    ensures SortedBy(r, key)
    ensures multiset(r) == multiset(s) + multiset{x}
  {
    if |s| == 0 then [x]
    else if key(x) <= key(s[0]) then [x] + s
    else
      var rest := InsertByKey(x, s[1..], key);
      assert SortedBy([s[0]] + rest, key) by {
        HeadBelowRest(s, x, rest, key);
      }
      assert s == [s[0]] + s[1..];
      [s[0]] + rest
  }

  lemma HeadBelowRest<T>(s: seq<T>, x: T, rest: seq<T>, key: T -> int)
    requires |s| > 0 && SortedBy(s, key) && SortedBy(rest, key)
    requires key(s[0]) < key(x)
    requires multiset(rest) == multiset(s[1..]) + multiset{x}
    ensures SortedBy([s[0]] + rest, key)
  {
    var r := [s[0]] + rest;
    forall i, j | 0 <= i < j < |r| ensures key(r[i]) <= key(r[j]) {
      assert r[j] == rest[j - 1];
      if i == 0 {
        assert rest[j - 1] in multiset(rest);
        if rest[j - 1] != x {
          assert rest[j - 1] in multiset(s[1..]);
          var k :| 0 <= k < |s[1..]| && s[1..][k] == rest[j - 1];
          assert s[k + 1] == rest[j - 1];
        }
      } else {
        assert r[i] == rest[i - 1];
      }
    }
  }

  /** A stable insertion sort by key (equal keys keep their input order). */
  function SortByKey<T(==)>(s: seq<T>, key: T -> int): (r: seq<T>)
    ensures SortedBy(r, key)
    ensures multiset(r) == multiset(s)
  {
    if |s| == 0 then []
    else
      assert s == [s[0]] + s[1..];
      InsertByKey(s[0], SortByKey(s[1..], key), key)
  }
}

=== FILE: storage.dfy ===
/** The in-memory stand-in for the MongoDB database the server and the
    membership mirror share: the project collection keyed by `_id`, and the
    page, canvas and layer collections in insertion order. */
module Storage {
  import opened Basics
  import opened Seqs
  import opened Schema

  /** `nextId` stands for ObjectId generation: every id handed out so far
      is below it. */
  datatype Store = Store(
    projects: map<string, Project>,
    pages: seq<Page>,
    canvases: seq<Canvas>,
    layers: seq<Layer>,
    nextId: Id)

  function PageKey(p: Page): int { p.id }
  function CanvasKey(c: Canvas): int { c.id }
  function LayerKey(l: Layer): int { l.id }

  function PageOrder(p: Page): int { p.order }
  function CanvasOrder(c: Canvas): int { c.order }
  function LayerOrder(l: Layer): int { l.order }

  /** Ids are unique within each collection and all were handed out. */
  predicate WellFormed(s: Store)
  {
    && KeysBelow(s.pages, PageKey, s.nextId)
    && KeysBelow(s.canvases, CanvasKey, s.nextId)
    && KeysBelow(s.layers, LayerKey, s.nextId)
    && UniqueKeys(s.pages, PageKey)
    && UniqueKeys(s.canvases, CanvasKey)
    && UniqueKeys(s.layers, LayerKey)
  }

  // ------------------------------------------------------------ lookups by id

  predicate HasPage(pages: seq<Page>, id: Id)
  {
    exists i :: 0 <= i < |pages| && pages[i].id == id
  }

  predicate HasCanvas(canvases: seq<Canvas>, id: Id)
  {
    exists i :: 0 <= i < |canvases| && canvases[i].id == id
  }

  predicate HasLayer(layers: seq<Layer>, id: Id)
  {
    exists i :: 0 <= i < |layers| && layers[i].id == id
  }

  /** `findById`: the first document carrying the id. */
  function FindPage(pages: seq<Page>, id: Id): (r: Option<Page>)
    ensures r.Some? <==> HasPage(pages, id)
    ensures r.Some? ==> r.value in pages && r.value.id == id
  {
    match FirstWhere(pages, (p: Page) => p.id == id)
    case None => None
    case Some(i) => Some(pages[i])
  }

  function FindCanvas(canvases: seq<Canvas>, id: Id): (r: Option<Canvas>)
    ensures r.Some? <==> HasCanvas(canvases, id)
    ensures r.Some? ==> r.value in canvases && r.value.id == id
  {
    match FirstWhere(canvases, (c: Canvas) => c.id == id)
    case None => None
    case Some(i) => Some(canvases[i])
  }

  function FindLayer(layers: seq<Layer>, id: Id): (r: Option<Layer>)
    ensures r.Some? <==> HasLayer(layers, id)
    ensures r.Some? ==> r.value in layers && r.value.id == id
  {
    match FirstWhere(layers, (l: Layer) => l.id == id)
    case None => None
    case Some(i) => Some(layers[i])
  }

  // ---------------------------------------------------------------- siblings

  /** The filter `{ projectId }` on pages. */
  function PageInProject(projectId: string): Page -> bool
  {
    (p: Page) => p.projectId == projectId
  }

  /** The filter `{ projectId }` on canvases. */
  function CanvasInProject(projectId: string): Canvas -> bool
  {
    (c: Canvas) => c.projectId == projectId
  }

  /** The filter `{ projectId }` on layers. */
  function LayerInProject(projectId: string): Layer -> bool
  {
    (l: Layer) => l.projectId == projectId
  }

  /** The filter `{ pageId }` on canvases. */
  function CanvasOnPage(pageId: Id): Canvas -> bool
  {
    (c: Canvas) => c.pageId == pageId
  }

  /** The filter `{ canvasId }` on layers. */
  function LayerOnCanvas(canvasId: Id): Layer -> bool
  {
    (l: Layer) => l.canvasId == canvasId
  }

  /** `PageModel.find({ projectId })`. */
  function PagesOf(pages: seq<Page>, projectId: string): seq<Page>
  {
    Filter(pages, PageInProject(projectId))
  }

  /** `CanvasModel.find({ projectId })`. */
  function CanvasesOfProject(canvases: seq<Canvas>, projectId: string): seq<Canvas>
  {
    Filter(canvases, CanvasInProject(projectId))
  }

  /** `LayerModel.find({ projectId })`. */
  function LayersOfProject(layers: seq<Layer>, projectId: string): seq<Layer>
  {
    Filter(layers, LayerInProject(projectId))
  }

  /** `CanvasModel.find({ pageId })`. */
  function CanvasesOfPage(canvases: seq<Canvas>, pageId: Id): seq<Canvas>
  {
    Filter(canvases, CanvasOnPage(pageId))
  }

  /** `LayerModel.find({ canvasId })`. */
  function LayersOfCanvas(layers: seq<Layer>, canvasId: Id): seq<Layer>
  {
    Filter(layers, LayerOnCanvas(canvasId))
  }

  function PageOrders(pages: seq<Page>, projectId: string): seq<int>
  {
    MapSeq(PagesOf(pages, projectId), PageOrder)
  }

  function CanvasOrders(canvases: seq<Canvas>, pageId: Id): seq<int>
  {
    MapSeq(CanvasesOfPage(canvases, pageId), CanvasOrder)
  }

  function LayerOrders(layers: seq<Layer>, canvasId: Id): seq<int>
  {
    MapSeq(LayersOfCanvas(layers, canvasId), LayerOrder)
  }

  // ----------------------------------------------------------------- ordering

  /** The largest of a non-empty list of orders (what
      `findOne(...).sort({ order: -1 })` returns the order of). */
  function MaxOrder(orders: seq<int>): (m: int)
    requires |orders| > 0
    ensures m in orders
    ensures forall i :: 0 <= i < |orders| ==> orders[i] <= m
  {
    if |orders| == 1 then orders[0]
    else
      var rest := MaxOrder(orders[1..]);
      assert forall i :: 1 <= i < |orders| ==> orders[i] == orders[1..][i - 1];
      if orders[0] >= rest then orders[0] else rest
  }

  /** "Last order + 1, else 0": the order a new sibling receives. */
  function NextOrder(orders: seq<int>): (r: int)
    ensures |orders| == 0 ==> r == 0
    ensures forall i :: 0 <= i < |orders| ==> orders[i] < r
    ensures |orders| > 0 ==> r - 1 in orders
  {
    if |orders| == 0 then 0 else MaxOrder(orders) + 1
  }

  /** The orders `0, 1, ..., n - 1`. */
  function Range(n: nat): (r: seq<int>)
    ensures |r| == n
    ensures forall i :: 0 <= i < n ==> r[i] == i
  {
    if n == 0 then [] else Range(n - 1) + [n - 1]
  }

  /** After orders `0..n-1` the next sibling gets `n`. */
  lemma NextOrderOfRange(n: nat)
    ensures NextOrder(Range(n)) == n
  {
    var r := Range(n);
    if n > 0 {
      assert r[n - 1] == n - 1;
      var k :| 0 <= k < n && r[k] == NextOrder(r) - 1;
    }
  }
}
